=== FILE: README.md ===
# Metashape processing workflow — Dafny model

This project models the stage orchestration of the Agisoft Metashape batch
workflow script `code/agisoft_workflow_V3_2022_3_16.py`. The script does four things:

- It derives a project identity. That is either a date-stamped
  `<project>_<YYYY_MM_DD>` under the base directory, or a resumed name given
  with `--continue-proj`.
- It creates the `.psx` project file if it is missing, and sets up GPU and
  logging settings.
- It runs up to two processing steps on the project's active chunk:
  - step one: add photos, import the GPS reference file, match, align,
    filter the sparse cloud, build a model, reduce overlap;
  - step two: depth maps, dense cloud, DEM, orthomosaic.
- It optionally exports the DEM and the orthomosaic as GeoTIFFs.

There are two fatal exits: no images were found, or the reference file is
missing or of the wrong image type. Each prints a message, saves the project
and exits. The script does not plan for any other way out, but an exception
while reading the reference file also ends the process, after the photos
were added and without a second save. The model covers one such case: a
reference file with fewer than two lines, as read in text mode, makes
`next(file)` raise `StopIteration`, which nothing catches. Text mode reads
`\r\n` and a lone `\r` as a line end, just like `\n` (`Text.UniversalNewlines`). Other read failures are listed
under "Left out". `Workflow.Process` models the script as written, this
crash included. `Workflow.ProcessCorrected` is the same run with a reference check
that exits with a message instead (see Findings).

The reconstruction engine itself is not modelled. Each call the script makes
on it becomes an `Engine.Event`, and a run is the trace of those events.
`Engine.Replay` is the partner semantics for a trace. It tracks which chunk
products exist in memory, which were captured by the last save, and which
rasters were written. The lemmas relate the orchestration to this ledger.

Modules:

| file | module | contents |
|---|---|---|
| text.dfy | Text | string helpers: prefix/suffix, `rjust`, universal newlines, line reading, first CSV field, fixed-width decimals |
| paths.dfy | Paths | run date stamp, POSIX `os.path.join`, project name, derived file names |
| settings.dfy | Settings | fixed parameters, the dense-quality table, the GPU bit mask |
| engine.dfy | Engine | engine events, chunk products, the replay ledger |
| project.dfy | Project | project files on disk, idempotent creation |
| reference.dfy | Reference | the reference-file check, as written and corrected |
| workflow.dfy | Workflow | stages, `save_and_exit`, `process` |
| session.dfy | Session | one invocation: constructor, `process`, write-back of what was saved |

## Notes on the script

- **Resumed name.** A `--continue-proj` value is still passed through
  `os.path.join(base, name)`. An absolute value therefore replaces the base
  directory, and a relative one is placed under it (`Paths.ProjectFilePath`).
- **Model and overlap are not saved.** With step one and without step two,
  `buildModel` and `reduceOverlap` run after the last save of the run.
  Nothing saves them, so they never reach the project file
  (`Workflow.CompletedRunEffects`).
- **Unknown dense quality.** For an unknown key, the depth-map downscale is
  the string `'high'` that `dict.get` returns as its default. It is not the
  factor 2 that the key `high` maps to (`Settings.UnknownQualityFallsBackToKey`).
- **Short reference file.** A reference file holding only its header line,
  or nothing, crashes the run after the photos were added; the photos never
  reach the project file (`Workflow.CrashedRunEffects`).

## Model

| member | source | states |
|---|---|---|
| Settings.DenseDownscale | code/agisoft_workflow_V3_2022_3_16.py:208-211 | the depth-map downscale is a numeric factor exactly when the quality is one of the five table keys; otherwise it is the key string `high` |
| Settings.DenseDownscaleIsPowerOfLevel | code/agisoft_workflow_V3_2022_3_16.py:56-62 | the i-th quality level, from ultra to lowest, downscales by 2^i |
| Settings.DenseDownscaleMonotonic | code/agisoft_workflow_V3_2022_3_16.py:56-62 | a coarser quality level always downscales strictly more |
| Settings.QualityFactorRoundTrip | code/agisoft_workflow_V3_2022_3_16.py:56-62 | the quality table and its inverse agree in both directions, so no two keys share a factor |
| Settings.QualityTableKeys | code/agisoft_workflow_V3_2022_3_16.py:56-62 | the quality table has exactly the five quality levels as keys |
| Settings.UnknownQualityFallsBackToKey | code/agisoft_workflow_V3_2022_3_16.py:210 | the lookup is case-sensitive: `High` falls back to the string `'high'`, which differs from what `high` yields |
| Settings.GpuMask | code/agisoft_workflow_V3_2022_3_16.py:110-112 | for any number n of devices the padded binary string of n ones reads as 2^n - 1, even past eight devices and for zero, so exactly the n lowest bits of the mask are set |
| Paths.FormatDate | code/agisoft_workflow_V3_2022_3_16.py:100 | the run-date stamp has ten characters with underscores at positions 4 and 7 |
| Paths.DateRoundTrip | code/agisoft_workflow_V3_2022_3_16.py:100 | reading the stamp back gives the date it was printed from |
| Paths.FormatDateInjective | code/agisoft_workflow_V3_2022_3_16.py:100 | different dates print different stamps |
| Paths.ParseDateExact | code/agisoft_workflow_V3_2022_3_16.py:100 | a string reads as a date exactly when it is that date's stamp |
| Paths.BaseDir | code/agisoft_workflow_V3_2022_3_16.py:68 | the base directory gains a trailing slash unless it is empty or already has one, and is otherwise unchanged |
| Paths.Join | code/agisoft_workflow_V3_2022_3_16.py:104-106 | an absolute second part replaces the first; a relative one is appended directly when the first is empty or ends in a slash, and after one added slash otherwise |
| Paths.JoinAssociative | code/agisoft_workflow_V3_2022_3_16.py:85-87 | joining is associative, so a three-part join from the left equals the first part joined with the join of the other two |
| Paths.ImageFolder | code/agisoft_workflow_V3_2022_3_16.py:85-87 | the image folder path ends in a separator when it is non-empty, and is the base joined with the folder already given its trailing slash |
| Paths.ProjectFilePath | code/agisoft_workflow_V3_2022_3_16.py:99-106 | with a resume name the project path is that name under the base directory, or the name itself when absolute; otherwise it is the project name, an underscore and the date stamp, under the base directory unless the name is absolute |
| Paths.FreshNameCarriesDate | code/agisoft_workflow_V3_2022_3_16.py:100-102 | the run date can be read back from the last ten characters of a fresh project path |
| Paths.FreshNamesDifferByDate | code/agisoft_workflow_V3_2022_3_16.py:99-106 | fresh runs on different dates get different project paths |
| Paths.ResumedNameIgnoresNameAndDate | code/agisoft_workflow_V3_2022_3_16.py:99-106 | with a resume name, neither the project name nor the date affects the project path |
| Paths.ProjectFile | code/agisoft_workflow_V3_2022_3_16.py:91 | the project document is named by the project path followed by `.psx` |
| Paths.LogPath | code/agisoft_workflow_V3_2022_3_16.py:120 | the log file is named by the project path followed by `_agisoft.log` |
| Paths.DemExportPath | code/agisoft_workflow_V3_2022_3_16.py:220 | the DEM raster is named by the project path followed by `_dem.tif` |
| Paths.OrthoExportPath | code/agisoft_workflow_V3_2022_3_16.py:226 | the orthomosaic raster is named by the project path followed by `.tif` |
| Paths.DerivedPathsDistinct | code/agisoft_workflow_V3_2022_3_16.py:218-230 | the project file, log file, DEM export and orthomosaic export of one project all start with its path and are pairwise distinct |
| Paths.DerivedPathsInjective | code/agisoft_workflow_V3_2022_3_16.py:218-230 | different project paths never share a project file, log, DEM or orthomosaic path |
| Project.CreateNewProject | code/agisoft_workflow_V3_2022_3_16.py:90-97 | afterwards the project file exists; no existing file is changed and no other file appears; a new file holds one empty chunk |
| Project.CreateNewProjectIdempotent | code/agisoft_workflow_V3_2022_3_16.py:90-97 | creating the project a second time changes nothing |
| Project.CreateExistingIsNoOp | code/agisoft_workflow_V3_2022_3_16.py:90-97 | an existing project file is never overwritten |
| Reference.CheckReferenceFileAsWritten | code/agisoft_workflow_V3_2022_3_16.py:147-164 | a missing file exits with the missing message; a file with fewer than two lines, after newline translation, raises; otherwise it passes exactly when the first row's first field ends with the image suffix, and a mismatch exits with the message that names the given suffix and that field |
| Reference.HeaderOnlyFileRaises | code/agisoft_workflow_V3_2022_3_16.py:153-155 | a file holding only its header line makes the check raise instead of saving and exiting; the corrected check exits with a message |
| Reference.CorrectionOnlyAffectsShortFiles | code/agisoft_workflow_V3_2022_3_16.py:147-164 | the corrected check agrees with the written one on every missing file and every file with at least two lines |
| Reference.CheckReferenceFile | code/agisoft_workflow_V3_2022_3_16.py:147-164 | the corrected check never raises, exits with a non-empty message, and passes exactly when there is a first row whose first field ends with the image suffix |
| Reference.FirstRowDecides | code/agisoft_workflow_V3_2022_3_16.py:153-161 | with a header and a first row, the verdict of the check as written (and of the corrected one) depends only on that row's first field: pass if it carries the suffix, otherwise a mismatch exit naming it |
| Reference.LaterRowsIgnored | code/agisoft_workflow_V3_2022_3_16.py:153-155 | rows after the first data row never change the verdict, as written or corrected |
| Reference.CommaFreeRowKeepsNewline | code/agisoft_workflow_V3_2022_3_16.py:155-156 | a row without a comma is compared with its line ending attached, so it is rejected, as written or corrected |
| Reference.ExampleFile | code/agisoft_workflow_V3_2022_3_16.py:147-164 | a `.JPG` row passes a `.JPG` check and is rejected by a `.tif` check, as written or corrected; the same file with `\r` line endings also passes |
| Reference.LineEndingsIgnored | code/agisoft_workflow_V3_2022_3_16.py:153-155 | whether the header and the first row end in `\n`, `\r\n` or `\r`, the first image read is the row's first field, and both checks give the same verdict as for the `\n` file |
| Text.NewlinesUnchanged | code/agisoft_workflow_V3_2022_3_16.py:153 | text without a carriage return reads back unchanged in text mode |
| Text.NewlinesPrefix | code/agisoft_workflow_V3_2022_3_16.py:153 | text mode translates a file piece by piece: a prefix without carriage returns is kept as it is, in front of the translated rest |
| Text.NewlinesIdempotent | code/agisoft_workflow_V3_2022_3_16.py:153 | translating line endings twice gives the same text as translating them once |
| Text.EndingRead | code/agisoft_workflow_V3_2022_3_16.py:153-155 | each of `\n`, `\r` and `\r\n` is read as one `\n`, and what follows a line ending is translated on its own unless the ending is a `\r` followed by `\n` |
| Workflow.SaveAndExit | code/agisoft_workflow_V3_2022_3_16.py:131-133 | an exit prints its messages, then saves as its last action, and ends the run |
| Workflow.ImageList | code/agisoft_workflow_V3_2022_3_16.py:135-145 | the run exits exactly when the image search found nothing |
| Workflow.LoadImageReferences | code/agisoft_workflow_V3_2022_3_16.py:166-173 | the reference file is imported from the base directory, as CSV with a comma delimiter, exactly when the check passes; an exiting check prints its message and saves; a raising check ends the process before the import, with nothing saved |
| Workflow.AlignImages | code/agisoft_workflow_V3_2022_3_16.py:175-186 | completes exactly when images are found and the reference file passes, adding the photos before importing the reference file and then matching and aligning; crashes exactly when images are found and the check raises, having only added the photos; an exit ends with a save |
| Workflow.Process | code/agisoft_workflow_V3_2022_3_16.py:313-341 | every run starts by saving the project, and a run crashes only when the reference check as written raises |
| Workflow.ProcessCorrected | code/agisoft_workflow_V3_2022_3_16.py:313-341 | with the corrected reference check, a run still starts by saving the project and never crashes |
| Workflow.ProcessOutcome | code/agisoft_workflow_V3_2022_3_16.py:313-327 | a run exits early exactly when step one is selected and either no images are found or the reference file is missing or of the wrong type, and such an exit ends with a save; it crashes exactly when step one is selected, images are found and the check raises, after only the initial save and the photos |
| Workflow.CorrectedRunDiffersOnlyByCrash | code/agisoft_workflow_V3_2022_3_16.py:153-155 | the corrected run equals the script whenever the written check does not raise; where the script crashes, the corrected run has the same events followed by the no-data message and a save |
| Workflow.HeaderOnlyReferenceCrashes | code/agisoft_workflow_V3_2022_3_16.py:153-155 | with step one selected and images found, a reference file holding only its header crashes the run after the initial save and the photos, while the corrected run prints the message and saves |
| Workflow.NoStepSelected | code/agisoft_workflow_V3_2022_3_16.py:313-341 | with neither step selected a run saves, prints the notice, exports if asked, and does nothing else |
| Workflow.EmptyImageListAborts | code/agisoft_workflow_V3_2022_3_16.py:135-145 | an empty image search aborts before the reference file is read, with two messages and a save |
| Workflow.RejectedReferenceAborts | code/agisoft_workflow_V3_2022_3_16.py:166-176 | a reference file that is missing or of the wrong type aborts after the photos were added, printing the rejection and saving |
| Workflow.StepOneOrder | code/agisoft_workflow_V3_2022_3_16.py:319-326 | step one performs add, import, match, align, save, the two filter-and-optimise passes, save, model and overlap reduction, in that order and with the fixed parameters |
| Workflow.StepOne | code/agisoft_workflow_V3_2022_3_16.py:318-326 | step one completes exactly when images are found and the reference file passes, and then performs alignment, filtering, a save, the model and the overlap reduction; it crashes exactly when images are found and the check raises |
| Workflow.StepTwoOrder | code/agisoft_workflow_V3_2022_3_16.py:331-338 | step two builds depth maps at the quality's downscale with aggressive filtering, then the dense cloud, DEM and orthomosaic, saving once, at the end |
| Workflow.BuildDenseCloudEvents | code/agisoft_workflow_V3_2022_3_16.py:208-215 | building the dense cloud produces exactly depth maps, at the quality's downscale with aggressive filtering, and the dense cloud; it exports and saves nothing |
| Workflow.StepTwo | code/agisoft_workflow_V3_2022_3_16.py:331-338 | step two produces exactly the dense products, exports nothing, and saves exactly once, as its last action |
| Workflow.CompletedRunTrace | code/agisoft_workflow_V3_2022_3_16.py:313-341 | a completed run is the initial save, the no-step notice, step one, step two and the export, each present exactly when selected |
| Workflow.ExportComesLast | code/agisoft_workflow_V3_2022_3_16.py:218-230 | with export requested, every completed run ends by writing `<path>_dem.tif` from elevation data and then the big-TIFF `<path>.tif` from the orthomosaic |
| Workflow.ExportResults | code/agisoft_workflow_V3_2022_3_16.py:218-230 | the export writes the DEM raster and then the orthomosaic raster, adds nothing to the chunk and saves nothing |
| Workflow.CompletedRunEffects | code/agisoft_workflow_V3_2022_3_16.py:313-341 | a completed run adds exactly the products of the selected steps and writes the two rasters when asked; with step two all of it is saved; with step one alone the model and overlap reduction stay unsaved; with no step the file is unchanged |
| Workflow.AbortedRunEffects | code/agisoft_workflow_V3_2022_3_16.py:131-133 | an aborted run leaves nothing unsaved, writes no raster, and adds at most the photos |
| Workflow.CrashedRunEffects | code/agisoft_workflow_V3_2022_3_16.py:175-177 | after a crash the project file holds what it held before the run, the added photos exist in memory only, and no raster is written; the corrected run saves the photos |
| Session.Setup | code/agisoft_workflow_V3_2022_3_16.py:108-121 | every device's bit is set in the GPU mask, the CPU and logging are enabled, and the log file is the project path plus `_agisoft.log` |
| Session.ActiveChunk | code/agisoft_workflow_V3_2022_3_16.py:81 | an opened document has an active chunk exactly when it has any chunk, and then it is the first |
| Session.Invoke | code/agisoft_workflow_V3_2022_3_16.py:66-88 | among project files an invocation touches only its own, which exists afterwards; it fails before processing exactly when an existing project file has no chunk |
| Session.Store | code/agisoft_workflow_V3_2022_3_16.py:315-338 | each of the saves in `process` (lines 315, 323 and 338; the same call is made at lines 132 and 186) writes the products into the project file's active chunk and changes no other chunk and no other file |
| Session.InvokeStores | code/agisoft_workflow_V3_2022_3_16.py:66-88 | a processing invocation always saves; afterwards the project file's active chunk holds the chunk that was opened plus every product made up to and including the run's last save, and the exported rasters are exactly those the trace writes |
| Engine.ReplaySaved | code/agisoft_workflow_V3_2022_3_16.py:313-341 | the saved state after a trace is the state it started from when the trace never saves, and otherwise the starting chunk plus every product made up to and including the last save |
| Session.FullRunStoresEverything | code/agisoft_workflow_V3_2022_3_16.py:313-341 | a first run of both steps on a new project that passes the checks stores every product of both steps and exports the rasters when asked |
| Session.FullRunFromScratch | code/agisoft_workflow_V3_2022_3_16.py:313-341 | both steps run on an empty chunk complete, the last save captures every product of both steps, and the requested rasters are exported |
| Session.AbortedRunIsStored | code/agisoft_workflow_V3_2022_3_16.py:131-133 | after an early exit, the project file holds everything the run had produced on top of what it held, and no raster was written |
| Session.CrashedRunKeepsOpenedChunk | code/agisoft_workflow_V3_2022_3_16.py:175-177 | when the reference check raises, the project file keeps the chunk it was opened with and no raster is written |
| Session.SameDayRerunResumes | code/agisoft_workflow_V3_2022_3_16.py:90-97 | a second invocation on the same day with the same options reopens the existing project instead of creating one, and is able to process |
| Session.NewDayNewProject | code/agisoft_workflow_V3_2022_3_16.py:99-106 | without a resume name, invocations on different dates work on different project paths and different `.psx` files |

## Left out

- `resize_region` (lines 235-310) is not modelled. It is floating-point geometry, and the script never calls it: its only call site is commented out.
- `setup_camera` is not modelled. It sets the chunk's coordinate system and accuracies, which affect only the engine's numerical results.
- The fixed export projection (EPSG:4326) and TIFF options are not modelled beyond the big-TIFF flag.
- Command-line parsing is not modelled. Options arrive already parsed. In particular, argparse's `type=bool` turns any non-empty string, including `False`, into true; this is not modelled.
- `--test-area` is read but never used, so it is not modelled.
- File-system queries are inputs to the model, not computed by it. The recursive image search arrives as a list of paths, the reference file's existence and contents as an optional string, today's date as a parameter, and the number of GPU devices as a number.
- The engine's computations are not modelled. Each engine call records only the product it leaves in the chunk.
- Printing is not modelled as output. Printed messages appear in the trace as notice events.
- `sys.exit` and its status code are modelled only as an aborted outcome, and an uncaught exception only as a crashed outcome; the traceback is not modelled.
- Paths.ValidDate: only years 1000-9999 are modelled, because the padding of `%Y` for smaller years differs between platforms.
- Reference.CheckReferenceFileAsWritten: failures to open or decode the file are not modelled. Examples are a path that is a directory, a `PermissionError`, or a `UnicodeDecodeError` at the first `next(file)`. None of them is caught, so each would crash the run in the same way as a short file: after `AddPhotos`, with no second save.
- Session.ActiveChunk: the document's active chunk is taken to be its first chunk, since the script only ever creates one.
- Session.Invoke: the `.psx` file is modelled as holding the active chunk's products. Its real format is not modelled.
- Session.Invoke: the file system holds project files only. The log file (line 120) and the exported rasters (lines 219-230) are also written by a run; the model records the raster paths in the result but not these files.
- Paths.Join: only POSIX `posixpath.join` is modelled. On Windows, where the script is also run (lines 397-398 of the script), `ntpath.join` also accepts `\` as a separator and appends `\` for an empty last part, and a drive letter changes how an absolute part replaces the base.
- Settings.DenseDownscale: the model assumes the engine accepts the string `'high'` as a downscale and builds depth maps with it; what it does with that value is not modelled.
- The report export (`PROJECT_REPORT`) is not modelled: it is commented out in the script.

## Findings

| source | as written | input that shows it | evidently intended | confidence | as-written member | corrected member |
|---|---|---|---|---|---|---|
| code/agisoft_workflow_V3_2022_3_16.py:153-155 | the header and the first row are read with `next(file)`, and nothing catches `StopIteration` | a reference file that holds only its header line, or is empty | every rejection of the reference file prints a message, saves the project and exits, as the missing-file and mismatch cases do | not executed | Reference.CheckReferenceFileAsWritten | Reference.CheckReferenceFile |

=== FILE: engine.dfy ===
/** The reconstruction engine seen from the workflow: every call the
    workflow makes on the chunk or the document is one `Event` of a trace.
    What the engine computes is not modelled; instead each call records the
    product it leaves in the chunk, and `Replay` runs a trace to tell which
    products exist in memory (`live`) and which were last written to the
    project file (`saved`). */
module Engine {
  import opened Text
  import opened Settings

  datatype Criterion = ReprojectionError | ProjectionAccuracy

  datatype DataSource = PointCloudData | ElevationData | OrthomosaicData

  datatype ReferenceFormat = ReferenceFormatCSV

  datatype Event =
    | Save
    | Notice(text: string)
    | AddPhotos(paths: seq<string>)
    | ImportReference(path: string, delimiter: string, format: ReferenceFormat)
    | MatchPhotos(matchDownscale: int, genericPreselection: bool, referencePreselection: bool,
                  keypointLimit: int, tiepointLimit: int)
    | AlignCameras
    | FilterPoints(criterion: Criterion, threshold: real)
    | OptimizeCameras
    | BuildModel(source: DataSource)
    | ReduceOverlap(overlap: int)
    | BuildDepthMaps(depthDownscale: Downscale, aggressiveFiltering: bool)
    | BuildDenseCloud
    | BuildDem
    | BuildOrthomosaic(surface: DataSource)
    | ExportRaster(path: string, source: DataSource, bigTiff: bool)

  /** What a chunk holds after the engine calls that produce it. */
  datatype Product =
    | Photos
    | References
    | TiePoints
    | CameraAlignment
    | FilteredBy(criterion: Criterion)
    | OptimizedCameras
    | Model
    | ReducedOverlap
    | DepthMaps
    | DenseCloud
    | Dem
    | Orthomosaic

  /** The products an engine call leaves in the chunk; saves, notices and
      raster exports leave none. */
  function Produces(e: Event): set<Product> {
    match e
    case AddPhotos(_) => {Photos}
    case ImportReference(_, _, _) => {References}
    case MatchPhotos(_, _, _, _, _) => {TiePoints}
    case AlignCameras => {CameraAlignment}
    case FilterPoints(c, _) => {FilteredBy(c)}
    case OptimizeCameras => {OptimizedCameras}
    case BuildModel(_) => {Model}
    case ReduceOverlap(_) => {ReducedOverlap}
    case BuildDepthMaps(_, _) => {DepthMaps}
    case BuildDenseCloud => {DenseCloud}
    case BuildDem => {Dem}
    case BuildOrthomosaic(_) => {Orthomosaic}
    case _ => {}
  }

  /** Products in memory, products in the project file, rasters written. */
  datatype State = State(live: set<Product>, saved: set<Product>, exported: seq<string>)

  function Step(st: State, e: Event): (r: State)
    ensures st.live <= r.live
    ensures e.Save? ==> r.saved == r.live
    ensures !e.Save? ==> r.saved == st.saved
  {
    match e
    case Save => st.(saved := st.live)
    case ExportRaster(path, _, _) => st.(exported := st.exported + [path])
    case _ => st.(live := st.live + Produces(e))
  }

  /** Runs a trace from a state. */
  function Replay(st: State, trace: seq<Event>): State
    decreases |trace|
  {
    if |trace| == 0 then st else Replay(Step(st, trace[0]), trace[1..])
  }

  /** The products a trace produces, in any order. */
  function ProducedBy(trace: seq<Event>): set<Product>
    decreases |trace|
  {
    if |trace| == 0 then {} else Produces(trace[0]) + ProducedBy(trace[1..])
  }

  /** The paths of the rasters a trace exports, in order. */
  function ExportedBy(trace: seq<Event>): seq<string>
    decreases |trace|
  {
    if |trace| == 0 then []
    else (if trace[0].ExportRaster? then [trace[0].path] else []) + ExportedBy(trace[1..])
  }

  predicate HasSave(trace: seq<Event>) {
    exists i :: 0 <= i < |trace| && trace[i] == Save
  }

  /** Running two traces one after the other is running their concatenation. */
  lemma {:induction false} ReplayAppend(st: State, a: seq<Event>, b: seq<Event>)
    ensures Replay(st, a + b) == Replay(Replay(st, a), b)
    decreases |a|
  {
    if |a| > 0 {
      assert (a + b)[0] == a[0];
      assert (a + b)[1..] == a[1..] + b;
      ReplayAppend(Step(st, a[0]), a[1..], b);
    } else {
      assert a + b == b;
    }
  }

  /** In memory there is what was there plus what the trace produced, and
      the exported rasters are appended in trace order. */
  lemma {:induction false} ReplayLive(st: State, trace: seq<Event>)
    ensures Replay(st, trace).live == st.live + ProducedBy(trace)
    ensures Replay(st, trace).exported == st.exported + ExportedBy(trace)
    decreases |trace|
  {
    if |trace| > 0 {
      var e, rest := trace[0], trace[1..];
      var next := Step(st, e);
      StepLive(st, e);
      ReplayLive(next, rest);
      var exportedHere := if e.ExportRaster? then [e.path] else [];
      assert ProducedBy(trace) == Produces(e) + ProducedBy(rest);
      assert ExportedBy(trace) == exportedHere + ExportedBy(rest);
      UnionRegroup(st.live, Produces(e), ProducedBy(rest));
      ConcatAssoc(st.exported, exportedHere, ExportedBy(rest));
    }
  }

  lemma UnionRegroup(a: set<Product>, b: set<Product>, c: set<Product>)
    ensures a + b + c == a + (b + c)
  {
  }

  /** One event adds what it produces and, for an export, its path. */
  lemma StepLive(st: State, e: Event)
    ensures Step(st, e).live == st.live + Produces(e)
    ensures Step(st, e).exported == st.exported + (if e.ExportRaster? then [e.path] else [])
  {
  }

  /** A trace without a save leaves the project file as it was. */
  lemma {:induction false} ReplayWithoutSave(st: State, trace: seq<Event>)
    requires !HasSave(trace)
    ensures Replay(st, trace).saved == st.saved
    decreases |trace|
  {
    if |trace| > 0 {
      assert trace[0] != Save;
      assert !HasSave(trace[1..]) by {
        forall i | 0 <= i < |trace| - 1
          ensures trace[1..][i] != Save
        {
          assert trace[1..][i] == trace[i + 1];
        }
      }
      ReplayWithoutSave(Step(st, trace[0]), trace[1..]);
    }
  }

  /** After a trace that ends in a save, the project file holds everything
      in memory. */
  lemma ReplayEndingInSave(st: State, trace: seq<Event>)
    requires |trace| > 0 && trace[|trace| - 1] == Save
    ensures Replay(st, trace).saved == Replay(st, trace).live
  {
    var front := trace[..|trace| - 1];
    assert trace == front + [Save];
    ReplayAppend(st, front, [Save]);
  }

  /** After a save followed by a save-free tail, the project file holds
      what existed at the save, and the tail's products are only in memory. */
  lemma ReplayUnsavedTail(st: State, head: seq<Event>, tail: seq<Event>)
    requires |head| > 0 && head[|head| - 1] == Save && !HasSave(tail)
    ensures Replay(st, head + tail).saved == st.live + ProducedBy(head)
    ensures Replay(st, head + tail).live == st.live + ProducedBy(head) + ProducedBy(tail)
  {
    ReplayAppend(st, head, tail);
    ReplayEndingInSave(st, head);
    ReplayLive(st, head);
    ReplayLive(Replay(st, head), tail);
    ReplayWithoutSave(Replay(st, head), tail);
  }

  /** The length of the part of a trace that its last save captured: up to
      and including that save, or 0 when the trace has none. */
  function SavedLength(trace: seq<Event>): (n: nat)
    ensures n <= |trace|
    ensures n > 0 ==> trace[n - 1] == Save
    ensures !HasSave(trace[n..])
    ensures n == 0 <==> !HasSave(trace)
    decreases |trace|
  {
    assert trace[0..] == trace;
    if |trace| == 0 then 0
    else if trace[|trace| - 1] == Save then |trace|
    else
      var front := trace[..|trace| - 1];
      var n := SavedLength(front);
      assert trace[n..] == front[n..] + [trace[|trace| - 1]];
      assert n > 0 ==> trace[n - 1] == front[n - 1];
      NoSaveAppend(front[n..], [trace[|trace| - 1]]);
      n
  }

  /** The project file holds what the chunk held plus the products of the
      trace up to its last save; without a save it is left as it was. */
  lemma ReplaySaved(st: State, trace: seq<Event>)
    ensures var n := SavedLength(trace);
      Replay(st, trace).saved == if n == 0 then st.saved else st.live + ProducedBy(trace[..n])
  {
    var n := SavedLength(trace);
    if n == 0 {
      assert trace[0..] == trace;
      ReplayWithoutSave(st, trace);
    } else {
      assert trace == trace[..n] + trace[n..];
      ReplayUnsavedTail(st, trace[..n], trace[n..]);
    }
  }

  lemma {:induction false} ProducedByAppend(a: seq<Event>, b: seq<Event>)
    ensures ProducedBy(a + b) == ProducedBy(a) + ProducedBy(b)
    ensures ExportedBy(a + b) == ExportedBy(a) + ExportedBy(b)
    decreases |a|
  {
    if |a| > 0 {
      var ab := a + b;
      assert ab[0] == a[0];
      assert ab[1..] == a[1..] + b;
      ProducedByAppend(a[1..], b);
      var head := if a[0].ExportRaster? then [a[0].path] else [];
      assert ExportedBy(ab) == head + (ExportedBy(a[1..]) + ExportedBy(b));
      assert ExportedBy(a) == head + ExportedBy(a[1..]);
    } else {
      assert a + b == b;
    }
  }

  /** One step of `ProducedBy` and `ExportedBy` at every position, so that
      both can be read off a trace written out event by event. */
  lemma TraceUnfold(trace: seq<Event>)
    ensures forall k :: 0 <= k < |trace| ==>
      ProducedBy(trace[k..]) == Produces(trace[k]) + ProducedBy(trace[k + 1..])
    ensures forall k :: 0 <= k < |trace| ==>
      ExportedBy(trace[k..])
        == (if trace[k].ExportRaster? then [trace[k].path] else []) + ExportedBy(trace[k + 1..])
    ensures ProducedBy(trace[|trace|..]) == {} && ExportedBy(trace[|trace|..]) == []
    ensures trace[0..] == trace
  {
    forall k | 0 <= k < |trace|
      ensures ProducedBy(trace[k..]) == Produces(trace[k]) + ProducedBy(trace[k + 1..])
      ensures ExportedBy(trace[k..])
        == (if trace[k].ExportRaster? then [trace[k].path] else []) + ExportedBy(trace[k + 1..])
    {
      assert trace[k..][1..] == trace[k + 1..];
    }
  }

  /** Two save-free traces make a save-free trace. */
  lemma NoSaveAppend(a: seq<Event>, b: seq<Event>)
    requires !HasSave(a) && !HasSave(b)
    ensures !HasSave(a + b)
  {
    forall i | 0 <= i < |a + b|
      ensures (a + b)[i] != Save
    {
      if i < |a| {
        assert (a + b)[i] == a[i];
      } else {
        assert (a + b)[i] == b[i - |a|];
      }
    }
  }
}

=== FILE: paths.dfy ===
/** Project identity: the run date, POSIX path joining, the project name
    (fresh and date-stamped, or resumed by name) and the files derived from
    it (project file, log, exported rasters), plus the reference file's
    fixed name in the base directory. */
module Paths {
  import opened Text

  const PROJECT_TYPE := ".psx"
  const EXPORT_IMAGE_TYPE := ".tif"
  const REFERENCE_FILE := "images_metadata_gps.csv"
  const LOG_SUFFIX := "_agisoft.log"
  const DEM_SUFFIX := "_dem"

  datatype Date = Date(year: nat, month: nat, day: nat)

  predicate IsLeapYear(year: nat) {
    year % 4 == 0 && (year % 100 != 0 || year % 400 == 0)
  }

  function DaysInMonth(year: nat, month: nat): nat
    requires 1 <= month <= 12
  {
    if month == 2 then (if IsLeapYear(year) then 29 else 28)
    else if month in {4, 6, 9, 11} then 30
    else 31
  }

  /** A calendar date as `datetime.date.today()` can return it, restricted
      to four-digit years (the padding of `%Y` below year 1000 differs
      between platforms). */
  predicate ValidDate(d: Date) {
    && 1000 <= d.year <= 9999
    && 1 <= d.month <= 12
    && 1 <= d.day <= DaysInMonth(d.year, d.month)
  }

  /** `strftime('%Y_%m_%d')`. */
  function FormatDate(d: Date): (r: string)
    requires ValidDate(d)
    ensures |r| == 10 && r[4] == '_' && r[7] == '_'
  {
    Decimal(d.year, 4) + "_" + Decimal(d.month, 2) + "_" + Decimal(d.day, 2)
  }

  /** Reads a `YYYY_MM_DD` stamp back; None for anything that is not the
      stamp of a valid date. */
  function ParseDate(s: string): (r: Option<Date>)
    ensures r.Some? ==> ValidDate(r.value)
  {
    if |s| != 10 || s[4] != '_' || s[7] != '_' then None
    else
      var year := ParseDecimal(s[..4]);
      var month := ParseDecimal(s[5..7]);
      var day := ParseDecimal(s[8..]);
      if year.None? || month.None? || day.None? then None
      else
        var date := Date(year.value, month.value, day.value);
        if ValidDate(date) then Some(date) else None
  }

  /** The date stamp reads back as the date it was printed from. */
  lemma DateRoundTrip(d: Date)
    requires ValidDate(d)
    ensures ParseDate(FormatDate(d)) == Some(d)
  {
    var s := FormatDate(d);
    assert d.year < Pow10(4) by { assert Pow10(4) == 10000; }
    assert d.month < Pow10(2) && d.day < Pow10(2) by { assert Pow10(2) == 100; }
    assert s[..4] == Decimal(d.year, 4);
    assert s[5..7] == Decimal(d.month, 2);
    assert s[8..] == Decimal(d.day, 2);
    DecimalRoundTrip(d.year, 4);
    DecimalRoundTrip(d.month, 2);
    DecimalRoundTrip(d.day, 2);
  }

  lemma FormatDateInjective(d1: Date, d2: Date)
    requires ValidDate(d1) && ValidDate(d2) && d1 != d2
    ensures FormatDate(d1) != FormatDate(d2)
  {
    DateRoundTrip(d1);
    DateRoundTrip(d2);
  }

  /** Every string that reads as a date is exactly that date's stamp. */
  lemma ParseDateExact(s: string, d: Date)
    requires ParseDate(s) == Some(d)
    ensures FormatDate(d) == s
  {
    ParseDecimalRoundTrip(s[..4], d.year);
    ParseDecimalRoundTrip(s[5..7], d.month);
    ParseDecimalRoundTrip(s[8..], d.day);
    StampParts(s);
  }

  lemma StampParts(s: string)
    requires |s| == 10 && s[4] == '_' && s[7] == '_'
    ensures s == s[..4] + "_" + s[5..7] + "_" + s[8..]
  {
  }

  /** `os.path.join(a, b)` on POSIX: an absolute `b` replaces `a`; otherwise
      a separator is inserted unless `a` is empty or already ends in one. */
  function Join(a: string, b: string): (r: string)
    ensures StartsWith(b, "/") ==> r == b
    ensures !StartsWith(b, "/") ==> EndsWith(r, b) && StartsWith(r, a)
    ensures !StartsWith(b, "/") ==> (r == a + b <==> (|a| == 0 || EndsWith(a, "/")))
    ensures !StartsWith(b, "/") && |a| > 0 && !EndsWith(a, "/") ==> r == a + "/" + b
  {
    if StartsWith(b, "/") then b
    else if |a| == 0 || EndsWith(a, "/") then
      EndsWithConcat(a, b);
      a + b
    else
      EndsWithConcat(a + "/", b);
      EndsWithConcat(a, "/" + b);
      assert a + "/" + b == a + ("/" + b);
      assert |a + "/" + b| != |a + b|;
      a + "/" + b
  }

  /** Joining is associative, so `os.path.join(a, b, c)`, which joins from
      the left, is also `a` joined with `b` joined with `c`. */
  lemma JoinAssociative(a: string, b: string, c: string)
    ensures Join(Join(a, b), c) == Join(a, Join(b, c))
  {
    if StartsWith(c, "/") {
    } else if StartsWith(b, "/") {
      JoinThroughAbsolute(a, b, c);
    } else if |b| == 0 {
      JoinThroughEmpty(a, c);
    } else {
      JoinThroughRelative(a, b, c);
    }
  }

  lemma JoinThroughAbsolute(a: string, b: string, c: string)
    requires StartsWith(b, "/") && !StartsWith(c, "/")
    ensures Join(Join(a, b), c) == Join(a, Join(b, c))
  {
    assert Join(b, c)[..1] == b[..1];
  }

  lemma JoinThroughEmpty(a: string, c: string)
    requires !StartsWith(c, "/")
    ensures Join(Join(a, ""), c) == Join(a, Join("", c))
  {
    var sa := Separator(a);
    JoinRelative(a, "");
    JoinRelative("", c);
    SeparatorAdded(a);
    JoinRelative(a + sa, c);
    JoinRelative(a, c);
    assert a + sa + "" == a + sa;
    assert "" + "" + c == c;
  }

  /** After its separator a directory needs no further one. */
  lemma SeparatorAdded(a: string)
    ensures Separator(a + Separator(a)) == ""
  {
    if |a| > 0 && !EndsWith(a, "/") {
      var t := a + "/";
      assert t[|t| - 1..] == "/";
    }
  }

  /** The case of `JoinAssociative` where both later parts are relative and
      the middle one is not empty. */
  lemma JoinThroughRelative(a: string, b: string, c: string)
    requires |b| > 0 && !StartsWith(b, "/") && !StartsWith(c, "/")
    ensures Join(Join(a, b), c) == Join(a, Join(b, c))
  {
    var ab, bc := Join(a, b), Join(b, c);
    var sa, sb := Separator(a), Separator(b);
    JoinRelative(a, b);
    JoinRelative(b, c);
    JoinKeepsLast(a, b);
    JoinStaysRelative(b, c);
    JoinRelative(ab, c);
    JoinRelative(a, bc);
    ConcatAssoc(a + sa + b, sb, c);
    ConcatAssoc(a + sa, b, sb + c);
    ConcatAssoc(b, sb, c);
  }

  /** A relative, non-empty part stays relative when a relative part is
      joined to it. */
  lemma JoinStaysRelative(b: string, c: string)
    requires |b| > 0 && !StartsWith(b, "/") && !StartsWith(c, "/")
    ensures !StartsWith(Join(b, c), "/")
  {
    var bc := Join(b, c);
    assert bc[..|b|] == b;
    assert bc[..1] == bc[..|b|][..1];
  }

  /** What `Join` puts between a directory and a relative part. */
  function Separator(a: string): string {
    if |a| == 0 || EndsWith(a, "/") then "" else "/"
  }

  lemma JoinRelative(a: string, b: string)
    requires !StartsWith(b, "/")
    ensures Join(a, b) == a + Separator(a) + b
  {
  }

  /** Joining a non-empty relative part leaves the separator that a further
      join needs as the part itself would. */
  lemma JoinKeepsLast(a: string, b: string)
    requires |b| > 0 && !StartsWith(b, "/")
    ensures Separator(Join(a, b)) == Separator(b)
  {
    JoinRelative(a, b);
    SlashEndAppend(a + Separator(a), b);
  }

  lemma SlashEndAppend(x: string, b: string)
    requires |b| > 0
    ensures EndsWith(x + b, "/") <==> EndsWith(b, "/")
  {
    var t := x + b;
    assert t[|t| - 1..] == [t[|t| - 1]];
    assert b[|b| - 1..] == [b[|b| - 1]];
  }


  /** `os.path.join(base_path, '')`: the base path with a trailing slash. */
  function BaseDir(basePath: string): (r: string)
    ensures |basePath| == 0 ==> r == ""
    ensures |basePath| > 0 ==> EndsWith(r, "/")
    ensures EndsWith(basePath, "/") ==> r == basePath
    ensures |basePath| > 0 && !EndsWith(basePath, "/") ==> r == basePath + "/"
  {
    Join(basePath, "")
  }

  /** The project name chosen for a run: the resumed name when one is given,
      otherwise the requested name stamped with the run date; in both cases
      joined under the base directory, where an absolute name replaces the
      base directory. */
  function ProjectFilePath(basePath: string, projectName: string, continueProj: string, today: Date): (r: string)
    requires ValidDate(today)
    ensures |continueProj| > 0 && StartsWith(continueProj, "/") ==> r == continueProj
    ensures |continueProj| > 0 && !StartsWith(continueProj, "/") ==> r == BaseDir(basePath) + continueProj
    ensures |continueProj| == 0 && StartsWith(projectName, "/") ==>
      r == projectName + "_" + FormatDate(today)
    ensures |continueProj| == 0 && !StartsWith(projectName, "/") ==>
      r == BaseDir(basePath) + projectName + "_" + FormatDate(today)
  {
    var name := if |continueProj| > 0 then continueProj else RunName(projectName, today);
    JoinRunName(BaseDir(basePath), projectName, today);
    Join(BaseDir(basePath), name)
  }

  /** Joining a fresh run name under a directory that is empty or ends in
      a slash. */
  lemma JoinRunName(dir: string, projectName: string, today: Date)
    requires ValidDate(today) && (|dir| == 0 || EndsWith(dir, "/"))
    ensures StartsWith(projectName, "/") ==>
      Join(dir, RunName(projectName, today)) == projectName + "_" + FormatDate(today)
    ensures !StartsWith(projectName, "/") ==>
      Join(dir, RunName(projectName, today)) == dir + projectName + "_" + FormatDate(today)
  {
    RunNameAbsolute(projectName, today);
    assert dir + RunName(projectName, today) == dir + projectName + "_" + FormatDate(today);
  }

  /** A run name is absolute exactly when the requested name is. */
  lemma RunNameAbsolute(projectName: string, today: Date)
    requires ValidDate(today)
    ensures StartsWith(RunName(projectName, today), "/") <==> StartsWith(projectName, "/")
  {
    var runName := RunName(projectName, today);
    assert runName[..1] == [runName[0]];
    if |projectName| > 0 {
      assert projectName[..1] == [projectName[0]];
      assert runName[0] == projectName[0];
    } else {
      assert runName[0] == '_';
    }
  }

  /** `project_name + '_' + run_date`. */
  function RunName(projectName: string, today: Date): (r: string)
    requires ValidDate(today)
    ensures |r| == |projectName| + 11
  {
    projectName + "_" + FormatDate(today)
  }

  lemma ResumedNameIgnoresNameAndDate(basePath: string, continueProj: string,
                                      name1: string, day1: Date, name2: string, day2: Date)
    requires ValidDate(day1) && ValidDate(day2) && |continueProj| > 0
    ensures ProjectFilePath(basePath, name1, continueProj, day1)
         == ProjectFilePath(basePath, name2, continueProj, day2)
  {
  }

  /** The run date can be read back off the end of a fresh project name. */
  lemma FreshNameCarriesDate(basePath: string, projectName: string, today: Date)
    requires ValidDate(today)
    ensures var p := ProjectFilePath(basePath, projectName, "", today);
      |p| >= 11 && p[|p| - 11] == '_' && ParseDate(p[|p| - 10..]) == Some(today)
  {
    var p := ProjectFilePath(basePath, projectName, "", today);
    FreshNameEndsWithStamp(basePath, projectName, today);
    DateRoundTrip(today);
  }

  lemma FreshNameEndsWithStamp(basePath: string, projectName: string, today: Date)
    requires ValidDate(today)
    ensures var p := ProjectFilePath(basePath, projectName, "", today);
      |p| >= 11 && p[|p| - 11] == '_' && p[|p| - 10..] == FormatDate(today)
  {
    var runName := RunName(projectName, today);
    JoinEndsWith(BaseDir(basePath), runName);
    EndsWithStamp(ProjectFilePath(basePath, projectName, "", today), projectName, FormatDate(today));
  }

  /** Whatever `Join` does, its result ends with its second part. */
  lemma JoinEndsWith(a: string, b: string)
    ensures EndsWith(Join(a, b), b)
  {
    if StartsWith(b, "/") {
      assert b[|b| - |b|..] == b;
    }
  }

  lemma EndsWithStamp(p: string, name: string, stamp: string)
    requires |stamp| == 10 && EndsWith(p, name + "_" + stamp)
    ensures |p| >= 11 && p[|p| - 11] == '_' && p[|p| - 10..] == stamp
  {
    var suffix := name + "_" + stamp;
    EndsWithTail(p, suffix, 11);
    assert suffix[|suffix| - 11..] == "_" + stamp;
  }

  lemma EndsWithTail(s: string, suffix: string, k: nat)
    requires EndsWith(s, suffix) && k <= |suffix|
    ensures s[|s| - k..] == suffix[|suffix| - k..]
  {
    assert s[|s| - k..] == s[|s| - |suffix|..][|suffix| - k..];
  }

  /** Fresh runs on different days never share a project file. */
  lemma FreshNamesDifferByDate(basePath: string, projectName: string, day1: Date, day2: Date)
    requires ValidDate(day1) && ValidDate(day2) && day1 != day2
    ensures ProjectFilePath(basePath, projectName, "", day1)
         != ProjectFilePath(basePath, projectName, "", day2)
  {
    FreshNameEndsWithStamp(basePath, projectName, day1);
    FreshNameEndsWithStamp(basePath, projectName, day2);
    FormatDateInjective(day1, day2);
  }

  /** A file named after the project: the project name and a fixed suffix. */
  predicate NamedAfter(r: string, name: string, suffix: string) {
    |r| == |name| + |suffix| && StartsWith(r, name) && EndsWith(r, suffix)
  }

  lemma NamedAfterConcat(name: string, suffix: string)
    ensures NamedAfter(name + suffix, name, suffix)
  {
    EndsWithConcat(name, suffix);
  }

  /** The project document: the project name with `.psx`. */
  function ProjectFile(name: string): (r: string)
    ensures NamedAfter(r, name, PROJECT_TYPE)
  {
    NamedAfterConcat(name, PROJECT_TYPE);
    name + PROJECT_TYPE
  }

  /** The processing log next to the project. */
  function LogPath(name: string): (r: string)
    ensures NamedAfter(r, name, LOG_SUFFIX)
  {
    NamedAfterConcat(name, LOG_SUFFIX);
    name + LOG_SUFFIX
  }

  /** The exported elevation model: `<name>_dem.tif`. */
  function DemExportPath(name: string): (r: string)
    ensures NamedAfter(r, name, DEM_SUFFIX + EXPORT_IMAGE_TYPE)
  {
    NamedAfterConcat(name, DEM_SUFFIX + EXPORT_IMAGE_TYPE);
    name + (DEM_SUFFIX + EXPORT_IMAGE_TYPE)
  }

  /** The exported orthomosaic: `<name>.tif`. */
  function OrthoExportPath(name: string): (r: string)
    ensures NamedAfter(r, name, EXPORT_IMAGE_TYPE)
  {
    NamedAfterConcat(name, EXPORT_IMAGE_TYPE);
    name + EXPORT_IMAGE_TYPE
  }

  /** The reference file sits directly in the base directory. */
  function ReferencePath(baseDir: string): string { baseDir + REFERENCE_FILE }

  /** `os.path.join(base, folder, '')`: the image folder with a trailing slash. */
  function ImageFolder(baseDir: string, folder: string): (r: string)
    ensures |r| > 0 ==> EndsWith(r, "/")
    ensures r == Join(baseDir, Join(folder, ""))
  {
    var j := Join(baseDir, folder);
    JoinAssociative(baseDir, folder, "");
    JoinRelative(j, "");
    SeparatorAdded(j);
    assert j + Separator(j) + "" == j + Separator(j);
    Join(j, "")
  }

  /** The four files named after a project are distinct, all start with
      the project name, and each determines the name it came from. */
  lemma DerivedPathsDistinct(name: string)
    ensures var files := [ProjectFile(name), LogPath(name), DemExportPath(name), OrthoExportPath(name)];
      (forall i :: 0 <= i < |files| ==> StartsWith(files[i], name)) &&
      (forall i, j :: 0 <= i < j < |files| ==> files[i] != files[j])
  {
    var files := [ProjectFile(name), LogPath(name), DemExportPath(name), OrthoExportPath(name)];
    forall i | 0 <= i < |files|
      ensures StartsWith(files[i], name)
    {
      assert files[i][..|name|] == name;
    }
    var n := |name|;
    assert ProjectFile(name)[n + 3] == 'x';
    assert LogPath(name)[n + 11] == 'g';
    assert |DemExportPath(name)| == n + 8;
    assert |OrthoExportPath(name)| == n + 4;
    assert |LogPath(name)| == n + 12;
    assert ProjectFile(name)[n + 1] == 'p' && OrthoExportPath(name)[n + 1] == 't';
  }

  lemma DerivedPathsInjective(a: string, b: string)
    requires a != b
    ensures ProjectFile(a) != ProjectFile(b)
    ensures LogPath(a) != LogPath(b)
    ensures DemExportPath(a) != DemExportPath(b)
    ensures OrthoExportPath(a) != OrthoExportPath(b)
  {
    if |a| == |b| {
      var i :| 0 <= i < |a| && a[i] != b[i];
      assert ProjectFile(a)[i] == a[i] && ProjectFile(b)[i] == b[i];
      assert LogPath(a)[i] == a[i] && LogPath(b)[i] == b[i];
      assert DemExportPath(a)[i] == a[i] && DemExportPath(b)[i] == b[i];
      assert OrthoExportPath(a)[i] == a[i] && OrthoExportPath(b)[i] == b[i];
    }
  }
}

=== FILE: project.dfy ===
/** Project files on disk and their idempotent creation. A project
    document is a list of chunks; the workflow works on the first one. */
module Project {
  import opened Engine
  import opened Paths

  datatype Chunk = Chunk(products: set<Product>)

  datatype Document = Document(chunks: seq<Chunk>)

  /** The project files that exist, by path. */
  type FileSystem = map<string, Document>

  /** What a new project holds: one empty chunk. */
  const NEW_DOCUMENT := Document([Chunk({})])

  /** Creates `<name>.psx` holding one empty chunk when no file exists at
      that path; an existing file is left alone. No other file changes. */
  function CreateNewProject(fs: FileSystem, name: string): (r: FileSystem)
    ensures ProjectFile(name) in r
    ensures r.Keys == fs.Keys + {ProjectFile(name)}
    ensures forall p :: p in fs ==> r[p] == fs[p]
    ensures ProjectFile(name) !in fs ==> |r[ProjectFile(name)].chunks| == 1
    ensures ProjectFile(name) !in fs ==> r[ProjectFile(name)].chunks[0].products == {}
  {
    var path := ProjectFile(name);
    if path in fs then fs
    else fs[path := NEW_DOCUMENT]
  }

  /** A second creation for the same name changes nothing. */
  lemma CreateNewProjectIdempotent(fs: FileSystem, name: string)
    ensures CreateNewProject(CreateNewProject(fs, name), name) == CreateNewProject(fs, name)
  {
  }

  /** Creation never overwrites: with the file already present, the file
      system is returned as it was. */
  lemma CreateExistingIsNoOp(fs: FileSystem, name: string)
    requires ProjectFile(name) in fs
    ensures CreateNewProject(fs, name) == fs
  {
  }
}

=== FILE: reference.dfy ===
/** Validation of the camera reference file before it is imported. The
    file is comma-separated with a header line; only the first field of
    the first data line is looked at: it must end with the configured
    image suffix. */
module Reference {
  import opened Text

  const MISSING_MESSAGE := "**** EXIT - No reference file found ****"
  const NO_DATA_MESSAGE := "**** EXIT - Reference file has no image rows ****"

  function MismatchMessage(imageType: string, firstImage: string): string {
    "**** Reference file has different source image types *****\n"
    + "   given: " + imageType + "\n"
    + "   first image: " + firstImage
  }

  /** What the check does: let the import go ahead, print a message and
      save then exit, or let an exception escape (the process dies without
      saving). */
  datatype Check = Passed | Exit(message: string) | Raised

  /** The first field of the second line, when the file, read in text
      mode, has two lines. */
  function FirstImage(contents: string): Option<string> {
    FirstImageOfText(UniversalNewlines(contents))
  }

  /** The same on text whose line endings are already `\n`. */
  function FirstImageOfText(text: string): Option<string> {
    match NextLine(text)
    case None => None
    case Some((_, rest)) =>
      match NextLine(rest)
      case None => None
      case Some((row, _)) => Some(FirstField(row))
  }

  /** The check as the script writes it. `contents` is None when the file
      does not exist. Reading past the end of a file with fewer than two
      lines raises `StopIteration`, which nothing catches. */
  function CheckReferenceFileAsWritten(contents: Option<string>, imageType: string): (r: Check)
    ensures contents.None? ==> r == Exit(MISSING_MESSAGE)
    ensures contents.Some? && FirstImage(contents.value).None? ==> r == Raised
    ensures contents.Some? && FirstImage(contents.value).Some? ==>
      (r == Passed <==> EndsWith(FirstImage(contents.value).value, imageType))
    ensures contents.Some? && FirstImage(contents.value).Some? ==>
      (!EndsWith(FirstImage(contents.value).value, imageType) ==>
         r == Exit(MismatchMessage(imageType, FirstImage(contents.value).value)))
  {
    match contents
    case None => Exit(MISSING_MESSAGE)
    case Some(text) =>
      match FirstImage(text)
      case None => Raised
      case Some(first) =>
        if EndsWith(first, imageType) then Passed else Exit(MismatchMessage(imageType, first))
  }

  /** The check with a file of fewer than two lines rejected through the
      same save-then-exit path as every other rejection. */
  function CheckReferenceFile(contents: Option<string>, imageType: string): (r: Check)
    ensures r != Raised
    ensures r.Exit? ==> |r.message| > 0
    ensures contents.None? ==> r == Exit(MISSING_MESSAGE)
    ensures r == Passed <==>
      contents.Some? && FirstImage(contents.value).Some?
      && EndsWith(FirstImage(contents.value).value, imageType)
  {
    match CheckReferenceFileAsWritten(contents, imageType)
    case Raised => Exit(NO_DATA_MESSAGE)
    case other => other
  }

  /** A file that holds only its header line makes the check raise, so the
      process ends without the save every other rejection performs. */
  lemma HeaderOnlyFileRaises(header: string, imageType: string)
    requires '\n' !in header && '\r' !in header
    ensures CheckReferenceFileAsWritten(Some(header + "\n"), imageType) == Raised
    ensures CheckReferenceFile(Some(header + "\n"), imageType) == Exit(NO_DATA_MESSAGE)
  {
    NewlinesUnchanged(header + "\n");
    NextLineOfLine(header, "");
    assert header + "\n" + "" == header + "\n";
  }

  /** The two checks differ only on files with fewer than two lines. */
  lemma CorrectionOnlyAffectsShortFiles(contents: Option<string>, imageType: string)
    requires contents.None? || FirstImage(contents.value).Some?
    ensures CheckReferenceFile(contents, imageType) == CheckReferenceFileAsWritten(contents, imageType)
  {
  }

  /** With a header line and a first data row, the verdict of either
      check depends on the row's first field alone: it passes exactly when
      that field ends with the image suffix, whatever follows the row. */
  lemma FirstRowDecides(header: string, image: string, fields: string, tail: string, imageType: string)
    requires '\n' !in header && '\n' !in image && '\n' !in fields && ',' !in image
    requires '\r' !in header && '\r' !in image && '\r' !in fields
    ensures var contents := header + "\n" + image + "," + fields + "\n" + tail;
      CheckReferenceFileAsWritten(Some(contents), imageType)
        == if EndsWith(image, imageType) then Passed else Exit(MismatchMessage(imageType, image))
    ensures var contents := header + "\n" + image + "," + fields + "\n" + tail;
      CheckReferenceFile(Some(contents), imageType)
        == if EndsWith(image, imageType) then Passed else Exit(MismatchMessage(imageType, image))
  {
    var row := image + "," + fields;
    assert '\n' !in row && '\r' !in row;
    assert header + "\n" + image + "," + fields == header + "\n" + row;
    RowRead(header, row, tail);
    FirstFieldOf(image, fields + "\n");
    assert row + "\n" == image + "," + (fields + "\n");
  }

  /** Rows after the first data row are never inspected, by either check. */
  lemma LaterRowsIgnored(header: string, row: string, tail1: string, tail2: string, imageType: string)
    requires '\n' !in header && '\n' !in row && '\r' !in header && '\r' !in row
    ensures CheckReferenceFileAsWritten(Some(header + "\n" + row + "\n" + tail1), imageType)
         == CheckReferenceFileAsWritten(Some(header + "\n" + row + "\n" + tail2), imageType)
    ensures CheckReferenceFile(Some(header + "\n" + row + "\n" + tail1), imageType)
         == CheckReferenceFile(Some(header + "\n" + row + "\n" + tail2), imageType)
  {
    RowRead(header, row, tail1);
    RowRead(header, row, tail2);
  }

  lemma RowRead(header: string, row: string, tail: string)
    requires '\n' !in header && '\n' !in row && '\r' !in header && '\r' !in row
    ensures FirstImage(header + "\n" + row + "\n" + tail) == Some(FirstField(row + "\n"))
  {
    var prefix := header + "\n" + row + "\n";
    assert '\r' !in prefix;
    NewlinesPrefix(prefix, tail);
    LinesRead(header, row, UniversalNewlines(tail));
  }

  lemma LinesRead(header: string, row: string, tail: string)
    requires '\n' !in header && '\n' !in row
    ensures FirstImageOfText(header + "\n" + row + "\n" + tail) == Some(FirstField(row + "\n"))
  {
    var rest := row + "\n" + tail;
    NextLineOfLine(row, tail);
    FirstLineAfterHeader(header, rest, row + "\n", tail);
    ConcatAssoc(header + "\n" + row, "\n", tail);
    ConcatAssoc(header + "\n", row, "\n" + tail);
    ConcatAssoc(row, "\n", tail);
  }

  lemma FirstLineAfterHeader(header: string, rest: string, line: string, after: string)
    requires '\n' !in header && NextLine(rest) == Some((line, after))
    ensures FirstImageOfText(header + "\n" + rest) == Some(FirstField(line))
  {
    NextLineOfLine(header, rest);
  }

  /** The line endings do not matter: after the header and after a
      non-empty first row, `\r\n`, a lone `\r` and `\n` give the same
      first image and so the same verdict of either check. */
  lemma LineEndingsIgnored(header: string, row: string, tail: string, end1: string, end2: string,
                           imageType: string)
    requires '\n' !in header && '\n' !in row && '\r' !in header && '\r' !in row && |row| > 0
    requires end1 == "\n" || end1 == "\r" || end1 == "\r\n"
    requires end2 == "\n" || end2 == "\r" || end2 == "\r\n"
    ensures FirstImage(header + end1 + row + end2 + tail) == Some(FirstField(row + "\n"))
    ensures CheckReferenceFileAsWritten(Some(header + end1 + row + end2 + tail), imageType)
         == CheckReferenceFileAsWritten(Some(header + "\n" + row + "\n" + tail), imageType)
    ensures CheckReferenceFile(Some(header + end1 + row + end2 + tail), imageType)
         == CheckReferenceFile(Some(header + "\n" + row + "\n" + tail), imageType)
  {
    var rest := row + end2 + tail;
    var after := EndingRead(end2, tail);
    NewlinesPrefix(row, end2 + tail);
    ConcatAssoc(row, end2, tail);
    var afterHeader := EndingRead(end1, rest);
    NewlinesPrefix(header, end1 + rest);
    TextOfEndings(header, end1, row, end2, tail, rest, after);
    LinesRead(header, row, after);
    RowRead(header, row, tail);
  }

  lemma TextOfEndings(header: string, end1: string, row: string, end2: string, tail: string,
                      rest: string, after: string)
    requires rest == row + end2 + tail
    requires UniversalNewlines(header + (end1 + rest))
          == header + ("\n" + (row + ("\n" + after)))
    ensures UniversalNewlines(header + end1 + row + end2 + tail)
         == header + "\n" + row + "\n" + after
  {
    ConcatAssoc(header, end1, rest);
    ConcatAssoc(header + end1, row, end2);
    ConcatAssoc(header + end1, row + end2, tail);
    ConcatAssoc(header + end1 + row, end2, tail);
    ConcatAssoc(header + "\n", row, "\n" + after);
    ConcatAssoc(header + "\n" + row, "\n", after);
    ConcatAssoc(header, "\n", row + ("\n" + after));
  }

  /** A row without any comma is compared with its newline still attached,
      so it never matches a suffix that does not end in a newline. */
  lemma CommaFreeRowKeepsNewline(header: string, row: string, imageType: string)
    requires '\n' !in header && '\n' !in row && ',' !in row && '\r' !in header && '\r' !in row
    requires |imageType| > 0 && imageType[|imageType| - 1] != '\n'
    ensures CheckReferenceFileAsWritten(Some(header + "\n" + row + "\n"), imageType).Exit?
    ensures CheckReferenceFile(Some(header + "\n" + row + "\n"), imageType).Exit?
  {
    RowRead(header, row, "");
    assert header + "\n" + row + "\n" + "" == header + "\n" + row + "\n";
    var field := FirstField(row + "\n");
    assert field == row + "\n" by {
      assert ',' !in row + "\n";
    }
  }

  /** A concrete file: a `.JPG` row passes a `.JPG` check and fails a
      `.tif` check, as written and corrected alike, and the same file with
      old Mac line endings (a lone `\r`) passes too. */
  lemma ExampleFile()
    ensures CheckReferenceFileAsWritten(Some(EXAMPLE_FILE_CR), ".JPG") == Passed
    ensures CheckReferenceFileAsWritten(Some(EXAMPLE_FILE), ".JPG") == Passed
    ensures CheckReferenceFileAsWritten(Some(EXAMPLE_FILE), ".tif").Exit?
    ensures CheckReferenceFile(Some(EXAMPLE_FILE), ".JPG") == Passed
    ensures CheckReferenceFile(Some(EXAMPLE_FILE), ".tif").Exit?
  {
    ExampleRow(".JPG");
    ExampleRow(".tif");
    ExampleSuffixes();
    ExampleLineEndings();
  }

  lemma ExampleLineEndings()
    ensures CheckReferenceFileAsWritten(Some(EXAMPLE_FILE_CR), ".JPG")
         == CheckReferenceFileAsWritten(Some(EXAMPLE_FILE), ".JPG")
  {
    var row := EXAMPLE_IMAGE + "," + EXAMPLE_FIELDS;
    assert '\n' !in EXAMPLE_HEADER && '\r' !in EXAMPLE_HEADER;
    assert '\n' !in row && '\r' !in row;
    assert EXAMPLE_FILE_CR == EXAMPLE_HEADER + "\r" + row + "\r" + "";
    assert EXAMPLE_FILE == EXAMPLE_HEADER + "\n" + row + "\n" + "";
    LineEndingsIgnored(EXAMPLE_HEADER, row, "", "\r", "\r", ".JPG");
  }

  lemma ExampleSuffixes()
    ensures EndsWith(EXAMPLE_IMAGE, ".JPG") && !EndsWith(EXAMPLE_IMAGE, ".tif")
  {
    assert EXAMPLE_IMAGE[4..] == ".JPG";
    assert EXAMPLE_IMAGE[5] != ".tif"[1];
  }

  lemma ExampleRow(imageType: string)
    ensures CheckReferenceFileAsWritten(Some(EXAMPLE_FILE), imageType)
         == if EndsWith(EXAMPLE_IMAGE, imageType) then Passed else Exit(MismatchMessage(imageType, EXAMPLE_IMAGE))
    ensures CheckReferenceFile(Some(EXAMPLE_FILE), imageType)
         == if EndsWith(EXAMPLE_IMAGE, imageType) then Passed else Exit(MismatchMessage(imageType, EXAMPLE_IMAGE))
  {
    assert '\n' !in EXAMPLE_HEADER && '\r' !in EXAMPLE_HEADER;
    assert '\n' !in EXAMPLE_IMAGE && ',' !in EXAMPLE_IMAGE && '\r' !in EXAMPLE_IMAGE;
    assert '\n' !in EXAMPLE_FIELDS && '\r' !in EXAMPLE_FIELDS;
    assert EXAMPLE_FILE == EXAMPLE_HEADER + "\n" + EXAMPLE_IMAGE + "," + EXAMPLE_FIELDS + "\n" + "";
    FirstRowDecides(EXAMPLE_HEADER, EXAMPLE_IMAGE, EXAMPLE_FIELDS, "", imageType);
  }

  const EXAMPLE_IMAGE := "imgA.JPG"
  const EXAMPLE_FIELDS := "1,2,3,0,0,0"
  const EXAMPLE_FILE := EXAMPLE_HEADER + "\n" + EXAMPLE_IMAGE + "," + EXAMPLE_FIELDS + "\n"
  const EXAMPLE_FILE_CR := EXAMPLE_HEADER + "\r" + EXAMPLE_IMAGE + "," + EXAMPLE_FIELDS + "\r"
  const EXAMPLE_HEADER := "name,lon,lat,elev,yaw,pitch,roll"
}

=== FILE: session.dfy ===
/** One invocation of the workflow script: the constructor (project path,
    application settings, project creation, opening the project and its
    active chunk) followed by `process`. The run's engine events are
    replayed on the chunk read from the project file, and whatever the last
    save captured is written back to that file. */
module Session {
  import opened Text
  import opened Paths
  import opened Settings
  import opened Engine
  import opened Project
  import opened Workflow
  import opened Reference

  /** The application settings the constructor sets up. */
  datatype AppSettings = AppSettings(gpuMask: nat, cpuEnable: bool, logEnable: bool, logPath: string)

  /** How an invocation ends: `process` ran (to completion, to an early
      exit, or to an uncaught exception), or the opened document had no
      active chunk and the constructor failed on it before any processing. */
  datatype Result =
    | Finished(settings: AppSettings, fs: FileSystem, outcome: Outcome, exported: seq<string>)
    | NoActiveChunk(settings: AppSettings, fs: FileSystem)

  /** The path, without suffix, of the project this invocation works on. */
  function RunPath(opts: Options, today: Date): string
    requires ValidDate(today)
  {
    ProjectFilePath(opts.basePath, opts.projectName, opts.continueProj, today)
  }

  /** `setup_application`: every one of `gpus` devices enabled, the CPU
      enabled, and logging to a file next to the project. */
  function Setup(path: string, gpus: nat): (r: AppSettings)
    ensures r.gpuMask == Pow2(gpus) - 1
    ensures forall i: nat :: Bit(r.gpuMask, i) == (if i < gpus then 1 else 0)
    ensures r.cpuEnable && r.logEnable
    ensures |r.logPath| == |path| + |LOG_SUFFIX|
    ensures EndsWith(r.logPath, LOG_SUFFIX) && r.logPath[..|path|] == path
  {
    assert LogPath(path)[..|path|] == path;
    assert LogPath(path)[|LogPath(path)| - |LOG_SUFFIX|..] == LOG_SUFFIX;
    AppSettings(GpuMask(gpus), true, true, LogPath(path))
  }

  /** The active chunk of an opened document: its first chunk, if any. */
  function ActiveChunk(doc: Document): (r: Option<Chunk>)
    ensures r.Some? <==> |doc.chunks| > 0
    ensures r.Some? ==> r.value == doc.chunks[0]
  {
    if |doc.chunks| == 0 then None else Some(doc.chunks[0])
  }

  /** The workspace the stages read, as the constructor derives it. */
  function SessionWorkspace(opts: Options, path: string): Workspace {
    var base := BaseDir(opts.basePath);
    Workspace(base, path, ImageFolder(base, opts.imageFolder), opts.imageType)
  }

  /** One invocation on the file system `fs`, on the date `today`, with
      `gpus` devices and the given file-search results. */
  function Invoke(fs: FileSystem, opts: Options, today: Date, gpus: nat, inputs: Inputs): (r: Result)
    requires ValidDate(today)
    ensures var file := ProjectFile(RunPath(opts, today));
      r.fs.Keys == fs.Keys + {file}
      && (forall p :: p in fs && p != file ==> r.fs[p] == fs[p])
    ensures r.settings == Setup(RunPath(opts, today), gpus)
    ensures var file := ProjectFile(RunPath(opts, today));
      r.NoActiveChunk? <==> file in fs && |fs[file].chunks| == 0
    ensures var file := ProjectFile(RunPath(opts, today));
      r.Finished? ==> |r.fs[file].chunks| > 0
  {
    var path := RunPath(opts, today);
    var file := ProjectFile(path);
    var settings := Setup(path, gpus);
    var created := CreateNewProject(fs, path);
    var doc := created[file];
    match ActiveChunk(doc)
    case None => NoActiveChunk(settings, created)
    case Some(chunk) =>
      var outcome := Process(SessionWorkspace(opts, path), opts, inputs);
      var after := Replay(State(chunk.products, chunk.products, []), outcome.trace);
      Finished(settings, Store(created, file, after.saved), outcome, after.exported)
  }

  /** Writes `products` as the active chunk of the project file `file`;
      the document's other chunks and every other file stay as they were. */
  function Store(fs: FileSystem, file: string, products: set<Product>): (r: FileSystem)
    requires file in fs && |fs[file].chunks| > 0
    ensures r.Keys == fs.Keys
    ensures forall p :: p in fs && p != file ==> r[p] == fs[p]
    ensures |r[file].chunks| == |fs[file].chunks|
    ensures r[file].chunks[0].products == products
    ensures r[file].chunks[1..] == fs[file].chunks[1..]
  {
    var doc := fs[file];
    fs[file := Document([Chunk(products)] + doc.chunks[1..])]
  }

  /** The products of the project's active chunk in `fs`, if it has one. */
  function StoredProducts(fs: FileSystem, file: string): Option<set<Product>> {
    if file in fs && |fs[file].chunks| > 0 then Some(fs[file].chunks[0].products) else None
  }

  /** The project file after a finished invocation holds, as its active
      chunk, the chunk that was opened plus everything the run produced up
      to its last save, and the rasters written are those the run exported,
      in order; the run is `process` on the constructor's workspace, and it
      always saves. */
  lemma InvokeStores(fs: FileSystem, opts: Options, today: Date, gpus: nat, inputs: Inputs)
    requires ValidDate(today)
    requires Invoke(fs, opts, today, gpus, inputs).Finished?
    ensures var path := RunPath(opts, today);
      var r := Invoke(fs, opts, today, gpus, inputs);
      var before := CreateNewProject(fs, path)[ProjectFile(path)].chunks[0].products;
      var n := SavedLength(r.outcome.trace);
      r.outcome == Process(SessionWorkspace(opts, path), opts, inputs)
      && n > 0
      && StoredProducts(r.fs, ProjectFile(path)) == Some(before + ProducedBy(r.outcome.trace[..n]))
      && r.exported == ExportedBy(r.outcome.trace)
  {
    var path := RunPath(opts, today);
    var r := Invoke(fs, opts, today, gpus, inputs);
    var before := CreateNewProject(fs, path)[ProjectFile(path)].chunks[0].products;
    InvokeReplays(fs, opts, today, gpus, inputs);
    StoredAfterSave(r.outcome.trace, State(before, before, []));
  }

  lemma StoredAfterSave(trace: seq<Event>, st: State)
    requires |trace| > 0 && trace[0] == Save && st.exported == []
    ensures SavedLength(trace) > 0
    ensures Replay(st, trace).saved == st.live + ProducedBy(trace[..SavedLength(trace)])
    ensures Replay(st, trace).exported == ExportedBy(trace)
  {
    assert HasSave(trace);
    ReplaySaved(st, trace);
    ReplayLive(st, trace);
  }

  /** `Invoke` unfolded: the stored chunk and the rasters are read off the
      replay ledger. */
  lemma InvokeReplays(fs: FileSystem, opts: Options, today: Date, gpus: nat, inputs: Inputs)
    requires ValidDate(today)
    requires Invoke(fs, opts, today, gpus, inputs).Finished?
    ensures var path := RunPath(opts, today);
      var r := Invoke(fs, opts, today, gpus, inputs);
      var before := CreateNewProject(fs, path)[ProjectFile(path)].chunks[0].products;
      var after := Replay(State(before, before, []), r.outcome.trace);
      r.outcome == Process(SessionWorkspace(opts, path), opts, inputs)
      && StoredProducts(r.fs, ProjectFile(path)) == Some(after.saved)
      && r.exported == after.exported
  {
  }

  /** A first invocation on a file system without the project creates it,
      and a run that completes both steps stores every product of both
      steps in the project file and exports the rasters when asked. */
  lemma FullRunStoresEverything(fs: FileSystem, opts: Options, today: Date, gpus: nat, inputs: Inputs)
    requires ValidDate(today)
    requires ProjectFile(RunPath(opts, today)) !in fs
    requires opts.stepOneAlign && opts.stepTwoDenseCloud
    requires |inputs.images| > 0
    requires CheckReferenceFileAsWritten(inputs.referenceFile, opts.imageType) == Passed
    ensures var r := Invoke(fs, opts, today, gpus, inputs);
      r.Finished? && r.outcome.Completed?
      && StoredProducts(r.fs, ProjectFile(RunPath(opts, today)))
         == Some(ALIGNMENT_PRODUCTS + MODEL_PRODUCTS + DENSE_PRODUCTS)
      && r.exported == RunExports(opts, RunPath(opts, today))
  {
    var path := RunPath(opts, today);
    var r := Invoke(fs, opts, today, gpus, inputs);
    assert r.Finished?;
    assert CreateNewProject(fs, path)[ProjectFile(path)].chunks[0].products == {};
    InvokeReplays(fs, opts, today, gpus, inputs);
    FullRunFromScratch(SessionWorkspace(opts, path), opts, inputs);
  }

  /** Both steps run on an empty chunk: the run completes, the last save
      captures every product of both steps, and the rasters requested are
      exported. */
  lemma FullRunFromScratch(ws: Workspace, opts: Options, inputs: Inputs)
    requires opts.stepOneAlign && opts.stepTwoDenseCloud
    requires |inputs.images| > 0
    requires CheckReferenceFileAsWritten(inputs.referenceFile, opts.imageType) == Passed
    requires ws.imageType == opts.imageType
    ensures var outcome := Process(ws, opts, inputs);
      var after := Replay(State({}, {}, []), outcome.trace);
      outcome.Completed?
      && after.saved == ALIGNMENT_PRODUCTS + MODEL_PRODUCTS + DENSE_PRODUCTS
      && after.exported == RunExports(opts, ws.name)
  {
    var outcome := Process(ws, opts, inputs);
    ProcessOutcome(ws, opts, inputs);
    assert outcome.Completed?;
    CompletedRunEffects(State({}, {}, []), ws, opts, inputs);
  }

  /** When `process` exits early, the project file afterwards holds
      everything the run had in memory, and no raster was written. */
  lemma AbortedRunIsStored(fs: FileSystem, opts: Options, today: Date, gpus: nat, inputs: Inputs)
    requires ValidDate(today)
    requires Invoke(fs, opts, today, gpus, inputs).Finished?
    requires Invoke(fs, opts, today, gpus, inputs).outcome.Aborted?
    ensures var file := ProjectFile(RunPath(opts, today));
      var r := Invoke(fs, opts, today, gpus, inputs);
      var before := CreateNewProject(fs, RunPath(opts, today))[file].chunks[0].products;
      StoredProducts(r.fs, file) == Some(before + ProducedBy(r.outcome.trace))
      && r.exported == []
  {
    var path := RunPath(opts, today);
    var file := ProjectFile(path);
    var before := CreateNewProject(fs, path)[file].chunks[0].products;
    var outcome := Process(SessionWorkspace(opts, path), opts, inputs);
    InvokeReplays(fs, opts, today, gpus, inputs);
    AbortedRunEffects(State(before, before, []), SessionWorkspace(opts, path), opts, inputs);
    ReplayLive(State(before, before, []), outcome.trace);
  }

  /** When the reference check raises, the project file keeps the chunk
      it was opened with: the photos the run added are lost, and no raster
      was written. */
  lemma CrashedRunKeepsOpenedChunk(fs: FileSystem, opts: Options, today: Date, gpus: nat, inputs: Inputs)
    requires ValidDate(today)
    requires Invoke(fs, opts, today, gpus, inputs).Finished?
    requires Invoke(fs, opts, today, gpus, inputs).outcome.Crashed?
    ensures var file := ProjectFile(RunPath(opts, today));
      var r := Invoke(fs, opts, today, gpus, inputs);
      var before := CreateNewProject(fs, RunPath(opts, today))[file].chunks[0].products;
      StoredProducts(r.fs, file) == Some(before) && r.exported == []
  {
    var path := RunPath(opts, today);
    var file := ProjectFile(path);
    var before := CreateNewProject(fs, path)[file].chunks[0].products;
    InvokeReplays(fs, opts, today, gpus, inputs);
    CrashedRunEffects(State(before, before, []), SessionWorkspace(opts, path), opts, inputs);
  }

  /** A second invocation on the same day with the same options opens the
      project the first one wrote, starting from what the first one saved;
      it creates nothing new. */
  lemma SameDayRerunResumes(fs: FileSystem, opts: Options, today: Date, gpus: nat, inputs: Inputs,
                             gpus2: nat, inputs2: Inputs)
    requires ValidDate(today)
    requires Invoke(fs, opts, today, gpus, inputs).Finished?
    ensures var r := Invoke(fs, opts, today, gpus, inputs);
      var file := ProjectFile(RunPath(opts, today));
      file in r.fs && CreateNewProject(r.fs, RunPath(opts, today)) == r.fs
      && ActiveChunk(r.fs[file]).Some?
      && Invoke(r.fs, opts, today, gpus2, inputs2).Finished?
  {
    var r := Invoke(fs, opts, today, gpus, inputs);
    CreateExistingIsNoOp(r.fs, RunPath(opts, today));
  }

  /** Without `continue_proj`, runs on different dates use different
      project files, so a new day starts an empty project. */
  lemma NewDayNewProject(opts: Options, day1: Date, day2: Date)
    requires ValidDate(day1) && ValidDate(day2) && day1 != day2
    requires |opts.continueProj| == 0
    ensures RunPath(opts, day1) != RunPath(opts, day2)
    ensures ProjectFile(RunPath(opts, day1)) != ProjectFile(RunPath(opts, day2))
  {
    FreshNamesDifferByDate(opts.basePath, opts.projectName, day1, day2);
    DerivedPathsInjective(RunPath(opts, day1), RunPath(opts, day2));
  }
}

=== FILE: settings.dfy ===
/** Fixed processing parameters of the workflow, the dense-cloud quality
    lookup and the GPU bit mask. */
module Settings {
  import opened Text

  /** Downscale for photo matching (0 is the highest accuracy). */
  const IMAGE_ACCURACY_MATCHING: int := 0
  const KEYPOINT_LIMIT: int := 40000
  const TIEPOINT_LIMIT: int := 0
  const REPROJECTION_ERROR_THRESHOLD: real := 0.3
  const REPROJECTION_ACCURACY_THRESHOLD: real := 10.0
  /** Overlap passed to the engine's overlap reduction after alignment. */
  const REDUCE_OVERLAP: int := 6

  /** The quality keys in order from finest to coarsest. */
  const QUALITY_LEVELS: seq<string> := ["ultra", "high", "medium", "low", "lowest"]

  /** The dense-cloud quality table: quality key to depth-map downscale. */
  const DENSE_POINT_QUALITY: map<string, nat> :=
    map["ultra" := 1, "high" := 2, "medium" := 4, "low" := 8, "lowest" := 16]

  /** The table's keys are exactly the quality levels. */
  lemma QualityTableKeys()
    ensures DENSE_POINT_QUALITY.Keys == set q | q in QUALITY_LEVELS
  {
  }

  /** The value passed as the depth-map `downscale`: a number from the
      table, or the fallback of `dict.get`, which is the key string `'high'`
      itself rather than the number the key `high` maps to. */
  datatype Downscale = Factor(n: nat) | Key(name: string)

  function Pow2(n: nat): (r: nat)
    ensures r >= 1
  {
    if n == 0 then 1 else 2 * Pow2(n - 1)
  }

  /** `DENSE_POINT_QUALITY.get(quality, 'high')`. */
  function DenseDownscale(quality: string): (r: Downscale)
    ensures r.Factor? <==> quality in QUALITY_LEVELS
    ensures r.Key? ==> r.name == "high"
  {
    if quality in DENSE_POINT_QUALITY then Factor(DENSE_POINT_QUALITY[quality]) else Key("high")
  }

  /** The i-th quality level downscales depth maps by 2^i. */
  lemma DenseDownscaleIsPowerOfLevel(i: nat)
    requires i < |QUALITY_LEVELS|
    ensures DenseDownscale(QUALITY_LEVELS[i]) == Factor(Pow2(i))
  {
    assert Pow2(0) == 1 && Pow2(1) == 2 && Pow2(2) == 4 && Pow2(3) == 8 && Pow2(4) == 16;
  }

  /** Coarser levels downscale strictly more. */
  lemma DenseDownscaleMonotonic(i: nat, j: nat)
    requires i < j < |QUALITY_LEVELS|
    ensures DenseDownscale(QUALITY_LEVELS[i]).n < DenseDownscale(QUALITY_LEVELS[j]).n
  {
    DenseDownscaleIsPowerOfLevel(i);
    DenseDownscaleIsPowerOfLevel(j);
    Pow2Increasing(i, j);
  }

  lemma {:induction false} Pow2Increasing(i: nat, j: nat)
    requires i < j
    ensures Pow2(i) < Pow2(j)
  {
    if j > i + 1 {
      Pow2Increasing(i, j - 1);
    }
  }

  /** An unknown key (the lookup is case-sensitive) yields the string
      `'high'`, which differs from the factor the key `high` maps to. */
  lemma UnknownQualityFallsBackToKey()
    ensures DenseDownscale("High") == Key("high")
    ensures DenseDownscale("high") == Factor(2)
    ensures DenseDownscale("High") != DenseDownscale("high")
  {
    assert "High" !in QUALITY_LEVELS by {
      assert "High"[0] != "ultra"[0] && "High"[0] != "high"[0] && "High"[0] != "medium"[0];
      assert "High"[0] != "low"[0] && "High"[0] != "lowest"[0];
    }
  }

  /** The quality key whose table entry is `factor`, if any: the inverse of
      the table. */
  function QualityOfFactor(factor: nat): (r: Option<string>)
    ensures r.Some? ==> r.value in QUALITY_LEVELS
  {
    if factor == 1 then Some("ultra")
    else if factor == 2 then Some("high")
    else if factor == 4 then Some("medium")
    else if factor == 8 then Some("low")
    else if factor == 16 then Some("lowest")
    else None
  }

  /** The table and its inverse agree in both directions. */
  lemma QualityFactorRoundTrip(quality: string, factor: nat)
    ensures DenseDownscale(quality) == Factor(factor) <==> QualityOfFactor(factor) == Some(quality)
  {
  }

  /** Python's `int(s, 2)` on a non-empty string of binary digits. */
  function ParseBinary(s: string): (r: nat)
    requires |s| > 0
    requires forall i :: 0 <= i < |s| ==> s[i] == '0' || s[i] == '1'
    ensures r < Pow2(|s|)
  {
    var bit := if s[|s| - 1] == '1' then 1 else 0;
    if |s| == 1 then bit else 2 * ParseBinary(s[..|s| - 1]) + bit
  }

  /** Bit `i` of `m`. */
  function Bit(m: nat, i: nat): nat {
    if i == 0 then m % 2 else Bit(m / 2, i - 1)
  }

  /** The binary digits of the mask: `gpus` ones, left-padded with zeros
      to eight characters (never truncated). */
  function MaskDigits(gpus: nat): (r: string)
    ensures |r| > 0
    ensures forall i :: 0 <= i < |r| ==> r[i] == '0' || r[i] == '1'
  {
    var ones := Repeat('1', gpus);
    var digits := RJust(ones, 8, '0');
    forall i | 0 <= i < |digits|
      ensures digits[i] == '0' || digits[i] == '1'
    {
      if i >= |digits| - |ones| {
        assert digits[i] == digits[|digits| - |ones|..][i - (|digits| - |ones|)];
      }
    }
    digits
  }

  /** The mask enabling `gpus` devices, built as the script builds it: the
      mask digits read as binary. With n devices it is 2^n - 1 for any n
      (the padding never truncates and a zero-device mask is all zeros), so
      exactly its `gpus` lowest bits are set. */
  function GpuMask(gpus: nat): (r: nat)
    ensures r == Pow2(gpus) - 1
    ensures forall i: nat :: Bit(r, i) == (if i < gpus then 1 else 0)
  {
    MaskDigitsValue(gpus);
    LowBitsSetAll(Pow2(gpus) - 1, gpus);
    ParseBinary(MaskDigits(gpus))
  }

  /** Leading zeros do not change the value read. */
  lemma {:induction false} ParseBinaryLeadingZeros(zeros: nat, s: string)
    requires |s| > 0
    requires forall i :: 0 <= i < |s| ==> s[i] == '0' || s[i] == '1'
    ensures var t := Repeat('0', zeros) + s;
      (forall i :: 0 <= i < |t| ==> t[i] == '0' || t[i] == '1') && ParseBinary(t) == ParseBinary(s)
  {
    var t := Repeat('0', zeros) + s;
    assert t[|t| - 1] == s[|s| - 1];
    if zeros == 0 {
      assert t == s;
    } else {
      if |s| == 1 {
        ParseBinaryZeros(zeros);
        assert t == Repeat('0', zeros) + s;
        assert t[..|t| - 1] == Repeat('0', zeros);
      } else {
        ParseBinaryLeadingZeros(zeros, s[..|s| - 1]);
        assert t[..|t| - 1] == Repeat('0', zeros) + s[..|s| - 1];
      }
    }
  }

  lemma {:induction false} ParseBinaryZeros(n: nat)
    requires n > 0
    ensures ParseBinary(Repeat('0', n)) == 0
  {
    if n > 1 {
      ParseBinaryZeros(n - 1);
      assert Repeat('0', n)[..n - 1] == Repeat('0', n - 1);
    }
  }

  lemma {:induction false} ParseBinaryOnes(n: nat)
    requires n > 0
    ensures ParseBinary(Repeat('1', n)) == Pow2(n) - 1
  {
    if n > 1 {
      ParseBinaryOnes(n - 1);
      assert Repeat('1', n)[..n - 1] == Repeat('1', n - 1);
    }
  }

  /** The mask digits read as 2^n - 1 for n devices. */
  lemma MaskDigitsValue(gpus: nat)
    ensures ParseBinary(MaskDigits(gpus)) == Pow2(gpus) - 1
  {
    if gpus == 0 {
      MaskDigitsNone();
    } else if gpus < 8 {
      MaskDigitsPadded(gpus);
    } else {
      MaskDigitsWide(gpus);
    }
  }

  /** No devices: eight zeros, which read as zero. */
  lemma MaskDigitsNone()
    ensures ParseBinary(MaskDigits(0)) == 0
  {
    assert MaskDigits(0) == Repeat('0', 8);
    ParseBinaryZeros(8);
  }

  /** Fewer than eight devices: ones padded with zeros on the left. */
  lemma MaskDigitsPadded(gpus: nat)
    requires 0 < gpus < 8
    ensures ParseBinary(MaskDigits(gpus)) == Pow2(gpus) - 1
  {
    var ones := Repeat('1', gpus);
    ParseBinaryOnes(gpus);
    PaddedOnes(gpus);
    ParseBinaryLeadingZeros(8 - gpus, ones);
  }

  /** Eight devices or more: the ones are not padded and not truncated. */
  lemma MaskDigitsWide(gpus: nat)
    requires gpus >= 8
    ensures ParseBinary(MaskDigits(gpus)) == Pow2(gpus) - 1
  {
    assert MaskDigits(gpus) == Repeat('1', gpus);
    ParseBinaryOnes(gpus);
  }

  lemma PaddedOnes(gpus: nat)
    requires gpus < 8
    ensures RJust(Repeat('1', gpus), 8, '0') == Repeat('0', 8 - gpus) + Repeat('1', gpus)
  {
  }

  /** Exactly the `n` lowest bits of 2^n - 1 are set. */
  lemma LowBitsSetAll(mask: nat, n: nat)
    requires mask == Pow2(n) - 1
    ensures forall i: nat :: Bit(mask, i) == (if i < n then 1 else 0)
  {
    forall i: nat
      ensures Bit(mask, i) == (if i < n then 1 else 0)
    {
      LowBitsSet(n, i);
    }
  }

  lemma {:induction false} LowBitsSet(n: nat, i: nat)
    ensures Bit(Pow2(n) - 1, i) == if i < n then 1 else 0
  {
    if n == 0 {
      ZeroBits(i);
    } else if i > 0 {
      assert (Pow2(n) - 1) / 2 == Pow2(n - 1) - 1;
      LowBitsSet(n - 1, i - 1);
    }
  }

  lemma {:induction false} ZeroBits(i: nat)
    ensures Bit(0, i) == 0
  {
    if i > 0 {
      ZeroBits(i - 1);
    }
  }
}

=== FILE: text.dfy ===
/** String and number helpers shared by the workflow model: prefixes and
    suffixes, Python's `str.rjust`, universal newlines and line iteration
    over a text file, `str.split(',')[0]`, and fixed-width decimal numbers. */
module Text {

  datatype Option<+T> = None | Some(value: T)

  predicate StartsWith(s: string, prefix: string) {
    |prefix| <= |s| && s[..|prefix|] == prefix
  }

  /** Python's `s.endswith(suffix)`; every string ends with the empty string. */
  predicate EndsWith(s: string, suffix: string) {
    |suffix| <= |s| && s[|s| - |suffix|..] == suffix
  }

  lemma EndsWithConcat(prefix: string, suffix: string)
    ensures EndsWith(prefix + suffix, suffix)
    ensures StartsWith(prefix + suffix, prefix)
  {
    assert (prefix + suffix)[|prefix|..] == suffix;
    assert (prefix + suffix)[..|prefix|] == prefix;
  }

  /** `c * n` in Python. */
  function Repeat(c: char, n: nat): (r: string)
    ensures |r| == n
    ensures forall i :: 0 <= i < n ==> r[i] == c
  {
    if n == 0 then [] else [c] + Repeat(c, n - 1)
  }

  /** Python's `s.rjust(width, fill)`: pads on the left, never truncates. */
  function RJust(s: string, width: nat, fill: char): (r: string)
    ensures |r| == if |s| < width then width else |s|
    ensures EndsWith(r, s)
    ensures forall i :: 0 <= i < |r| - |s| ==> r[i] == fill
  {
    if |s| < width then
      var pad := Repeat(fill, width - |s|);
      EndsWithConcat(pad, s);
      pad + s
    else s
  }

  /** Index of the first `c` in `s`, or `|s|` when there is none. */
  function IndexOf(s: string, c: char): (r: nat)
    ensures r <= |s|
    ensures r < |s| ==> s[r] == c
    ensures forall i :: 0 <= i < r ==> s[i] != c
  {
    if |s| == 0 then 0
    else if s[0] == c then 0
    else 1 + IndexOf(s[1..], c)
  }

  /** What reading a file in Python's text mode yields: with universal
      newlines, `\r\n` and a lone `\r` are each read as `\n`. */
  function UniversalNewlines(s: string): (r: string)
    ensures '\r' !in r
    ensures |r| <= |s|
    decreases |s|
  {
    if |s| == 0 then []
    else if s[0] == '\r' then
      "\n" + UniversalNewlines(if |s| > 1 && s[1] == '\n' then s[2..] else s[1..])
    else [s[0]] + UniversalNewlines(s[1..])
  }

  /** Text without a carriage return reads back unchanged. */
  lemma {:induction false} NewlinesUnchanged(s: string)
    requires '\r' !in s
    ensures UniversalNewlines(s) == s
    decreases |s|
  {
    if |s| > 0 {
      assert s == [s[0]] + s[1..];
      NewlinesUnchanged(s[1..]);
    }
  }

  /** Reading text twice translates nothing more. */
  lemma NewlinesIdempotent(s: string)
    ensures UniversalNewlines(UniversalNewlines(s)) == UniversalNewlines(s)
  {
    NewlinesUnchanged(UniversalNewlines(s));
  }

  /** A prefix without a carriage return is read as it is, whatever
      follows it. */
  lemma {:induction false} NewlinesPrefix(a: string, b: string)
    requires '\r' !in a
    ensures UniversalNewlines(a + b) == a + UniversalNewlines(b)
    decreases |a|
  {
    if |a| > 0 {
      var ab := a + b;
      assert ab[0] == a[0] && ab[1..] == a[1..] + b;
      NewlinesPrefix(a[1..], b);
      ConcatAssoc([a[0]], a[1..], UniversalNewlines(b));
      assert [a[0]] + a[1..] == a;
    } else {
      assert a + b == b;
    }
  }

  /** Each of the three line endings is read as one `\n`; the text after
      it is what is left once the ending is consumed. */
  lemma EndingRead(ending: string, rest: string) returns (after: string)
    requires ending == "\n" || ending == "\r" || ending == "\r\n"
    ensures UniversalNewlines(ending + rest) == "\n" + after
    ensures |rest| == 0 || rest[0] != '\n' ==> after == UniversalNewlines(rest)
  {
    var s := ending + rest;
    assert s[0] == ending[0];
    if ending == "\n" {
      assert s[1..] == rest;
      after := UniversalNewlines(rest);
    } else if ending == "\r\n" {
      assert s[1] == '\n' && s[2..] == rest;
      after := UniversalNewlines(rest);
    } else {
      assert s[1..] == rest;
      after := UniversalNewlines(if |rest| > 0 && rest[0] == '\n' then rest[1..] else rest);
    }
  }

  /** Sequence concatenation regrouped, for callers that name the parts. */
  lemma ConcatAssoc<T>(a: seq<T>, b: seq<T>, c: seq<T>)
    ensures a + b + c == a + (b + c)
  {
  }

  /** One step of iterating over a text file: the next line, newline
      included, and what remains; None at end of file. Only the last line
      of a file may lack its newline. */
  function NextLine(s: string): (r: Option<(string, string)>)
    ensures r.None? <==> |s| == 0
    ensures r.Some? ==> r.value.0 + r.value.1 == s && |r.value.0| > 0
    ensures r.Some? ==> '\n' !in r.value.0[..|r.value.0| - 1]
    ensures r.Some? && |r.value.1| > 0 ==> r.value.0[|r.value.0| - 1] == '\n'
  {
    if |s| == 0 then None
    else
      var k := IndexOf(s, '\n');
      if k < |s| then
        assert s[..k + 1] + s[k + 1..] == s;
        Some((s[..k + 1], s[k + 1..]))
      else
        Some((s, []))
  }

  /** A complete line followed by anything is read back as that line. */
  lemma NextLineOfLine(line: string, rest: string)
    requires '\n' !in line
    ensures NextLine(line + "\n" + rest) == Some((line + "\n", rest))
  {
    var s := line + "\n" + rest;
    var k := IndexOf(s, '\n');
    assert forall i :: 0 <= i < |line| ==> s[i] == line[i];
    assert s[|line|] == '\n';
    assert k == |line|;
    assert s[..k + 1] == line + "\n";
    assert s[k + 1..] == rest;
  }

  /** The field separator of the comma-separated files the workflow reads. */
  const FIELD_DELIMITER := ','

  /** Python's `s.split(',')[0]`: everything before the first comma. */
  function FirstField(s: string): (r: string)
    ensures StartsWith(s, r)
    ensures ',' !in r
    ensures |r| < |s| ==> s[|r|] == ','
  {
    s[..IndexOf(s, FIELD_DELIMITER)]
  }

  lemma FirstFieldOf(field: string, rest: string)
    requires ',' !in field
    ensures FirstField(field + "," + rest) == field
  {
    var s := field + "," + rest;
    var r := FirstField(s);
    assert forall i :: 0 <= i < |field| ==> s[i] == field[i];
    assert s[|field|] == ',';
    assert |r| == |field|;
    assert r == s[..|field|] == field;
  }

  function Pow10(n: nat): (r: nat)
    ensures r >= 1
  {
    if n == 0 then 1 else 10 * Pow10(n - 1)
  }

  function DigitChar(d: nat): (c: char)
    requires d < 10
    ensures '0' <= c <= '9'
  {
    (48 + d) as char
  }

  function DigitValue(c: char): (r: Option<nat>)
    ensures r.Some? <==> '0' <= c <= '9'
    ensures r.Some? ==> r.value < 10 && DigitChar(r.value) == c
  {
    if '0' <= c <= '9' then Some(c as int - 48) else None
  }

  /** The `width` lowest decimal digits of `n`, zero-padded on the left
      (`%0<width>d` when `n` has at most `width` digits). */
  function Decimal(n: nat, width: nat): (r: string)
    ensures |r| == width
    ensures forall i :: 0 <= i < |r| ==> '0' <= r[i] <= '9'
  {
    if width == 0 then [] else Decimal(n / 10, width - 1) + [DigitChar(n % 10)]
  }

  /** Reads a string of decimal digits; None when any character is not a
      digit. The empty string reads as zero. */
  function ParseDecimal(s: string): (r: Option<nat>)
    ensures r.Some? <==> forall i :: 0 <= i < |s| ==> '0' <= s[i] <= '9'
    ensures r.Some? ==> r.value < Pow10(|s|)
  {
    if |s| == 0 then Some(0)
    else
      var init := s[..|s| - 1];
      assert forall i :: 0 <= i < |s| - 1 ==> s[i] == init[i];
      match ParseDecimal(init)
      case None => None
      case Some(high) =>
        match DigitValue(s[|s| - 1])
        case None => None
        case Some(d) => Some(10 * high + d)
  }

  /** Printing a number that fits and reading it back gives the number. */
  lemma {:induction false} DecimalRoundTrip(n: nat, width: nat)
    requires n < Pow10(width)
    ensures ParseDecimal(Decimal(n, width)) == Some(n)
  {
    if width > 0 {
      var high, low := n / 10, n % 10;
      LastDigitSplit(n, width);
      DecimalRoundTrip(high, width - 1);
      RoundTripStep(Decimal(n, width), Decimal(high, width - 1), high, low, n);
    }
  }

  /** The inductive step of `DecimalRoundTrip`, stated of plain strings. */
  lemma RoundTripStep(s: string, prefix: string, high: nat, low: nat, n: nat)
    requires low < 10 && s == prefix + [DigitChar(low)]
    requires ParseDecimal(prefix) == Some(high) && n == 10 * high + low
    ensures ParseDecimal(s) == Some(n)
  {
    ParseDecimalAppend(prefix, low);
  }

  /** Reading digits with one more digit appended. */
  lemma ParseDecimalAppend(t: string, d: nat)
    requires d < 10 && ParseDecimal(t).Some?
    ensures ParseDecimal(t + [DigitChar(d)]) == Some(10 * ParseDecimal(t).value + d)
  {
    var s := t + [DigitChar(d)];
    assert s[..|s| - 1] == t;
    DigitRoundTrip(d);
  }

  /** The last decimal digit and the rest of a number that fits `width`
      digits; the rest fits one digit less. */
  lemma LastDigitSplit(n: nat, width: nat)
    requires width > 0 && n < Pow10(width)
    ensures n / 10 < Pow10(width - 1) && n % 10 < 10 && 10 * (n / 10) + n % 10 == n
  {
    assert Pow10(width) == 10 * Pow10(width - 1);
  }

  /** Digits that print `high`, followed by the digit `d`, print
      `10 * high + d`: the inductive step of `ParseDecimalRoundTrip`,
      stated of plain strings. */
  lemma DecimalOfAppended(s: string, init: string, last: char, high: nat, d: nat, n: nat)
    requires d < 10 && DigitChar(d) == last && Decimal(high, |init|) == init
    requires s == init + [last] && n == 10 * high + d
    ensures Decimal(n, |s|) == s
  {
    DecimalAppend(high, d, |init|);
  }

  /** Printing `high` with the digit `d` appended prints `high` and then `d`. */
  lemma DecimalAppend(high: nat, d: nat, width: nat)
    requires d < 10
    ensures Decimal(10 * high + d, width + 1) == Decimal(high, width) + [DigitChar(d)]
  {
    assert (10 * high + d) / 10 == high && (10 * high + d) % 10 == d;
  }

  lemma DigitRoundTrip(d: nat)
    requires d < 10
    ensures DigitValue(DigitChar(d)) == Some(d)
  {
  }

  /** Reading digits and printing the number at the same width gives the
      same characters back, leading zeros included. */
  lemma {:induction false} ParseDecimalRoundTrip(s: string, n: nat)
    requires ParseDecimal(s) == Some(n)
    ensures Decimal(n, |s|) == s
  {
    if |s| > 0 {
      var init := s[..|s| - 1];
      var last := s[|s| - 1];
      ParseDecimalStep(s);
      var high := ParseDecimal(init).value;
      var d := DigitValue(last).value;
      ParseDecimalRoundTrip(init, high);
      assert s == init + [last];
      DecimalOfAppended(s, init, last, high, d, n);
    }
  }

  /** One step of reading digits: the last digit and the number read from
      the digits before it. */
  lemma ParseDecimalStep(s: string)
    requires |s| > 0 && ParseDecimal(s).Some?
    ensures ParseDecimal(s[..|s| - 1]).Some? && DigitValue(s[|s| - 1]).Some?
    ensures ParseDecimal(s).value
         == 10 * ParseDecimal(s[..|s| - 1]).value + DigitValue(s[|s| - 1]).value
  {
  }
}

=== FILE: workflow.dfy ===
/** The stage orchestration: three flags decide which fixed sequences of
    engine calls run, in a fixed order, and the two abort paths (no images
    found, reference file rejected) save the project before exiting. A run
    is a trace of engine events that either completes or is aborted. */
module Workflow {
  import opened Text
  import opened Paths
  import opened Settings
  import opened Engine
  import opened Reference

  const NO_STEP_MESSAGE := "No processing step selected. Choos step one or two"
  const DONE_FILTERING_MESSAGE := "Done filtering the sparse cloud"
  const DONE_REDUCING_MESSAGE := "done reducing overlap"
  const BUILDING_DENSE_MESSAGE := "building dense cloud"
  const BUILDING_DEM_MESSAGE := "building DEM"
  const BUILDING_ORTHOMOSAIC_MESSAGE := "building Orthomosaic"

  /** The command-line options the workflow reads. */
  datatype Options = Options(
    basePath: string,
    projectName: string,
    imageFolder: string,
    imageType: string,
    denseCloudQuality: string,
    withExport: bool,
    stepOneAlign: bool,
    stepTwoDenseCloud: bool,
    continueProj: string)

  /** The values the stages read from the workflow object: the base
      directory (with its trailing slash), the project name, the image
      folder and the image suffix. */
  datatype Workspace = Workspace(baseDir: string, name: string, imageFolder: string, imageType: string)

  /** What the file system shows a run: the images the recursive search
      finds, and the reference file's contents (None when it is missing). */
  datatype Inputs = Inputs(images: seq<string>, referenceFile: Option<string>)

  /** How a run ends: it completes; it exits early through `save_and_exit`;
      or an exception that nothing catches ends the process. In each case
      the trace is every event the run caused, in order. */
  datatype Outcome = Completed(trace: seq<Event>) | Aborted(trace: seq<Event>) | Crashed(trace: seq<Event>)

  /** Runs `next` after `first` unless `first` exited or crashed. */
  function Then(first: Outcome, next: Outcome): (r: Outcome)
    ensures !first.Completed? ==> r == first
    ensures first.Completed? ==> r.trace == first.trace + next.trace
    ensures first.Completed? ==> r.Completed? == next.Completed? && r.Aborted? == next.Aborted?
  {
    match first
    case Completed(t) =>
      (match next
       case Completed(u) => Completed(t + u)
       case Aborted(u) => Aborted(t + u)
       case Crashed(u) => Crashed(t + u))
    case _ => first
  }

  /** `save_and_exit`: print, save the project, exit. */
  function SaveAndExit(messages: seq<string>): (r: Outcome)
    ensures r.Aborted? && |r.trace| == |messages| + 1 && r.trace[|r.trace| - 1] == Save
  {
    Aborted(Notices(messages) + [Save])
  }

  function Notices(messages: seq<string>): (r: seq<Event>)
    ensures |r| == |messages|
    ensures forall i :: 0 <= i < |r| ==> r[i] == Notice(messages[i])
  {
    if |messages| == 0 then [] else [Notice(messages[0])] + Notices(messages[1..])
  }

  function NoImagesMessages(ws: Workspace): seq<string> {
    ["**** EXIT - " + ws.imageType + " no files found in directory:", "    " + ws.imageFolder]
  }

  /** `image_list`: exit when the search found nothing. */
  function ImageList(ws: Workspace, images: seq<string>): (r: Outcome)
    ensures r.Aborted? <==> |images| == 0
    ensures r.Completed? <==> |images| > 0
    ensures r.Completed? ==> r.trace == []
  {
    if |images| == 0 then SaveAndExit(NoImagesMessages(ws)) else Completed([])
  }

  /** `load_image_references`, given what `check_reference_file` does with
      the reference file: import the file, exit with the check's message,
      or let the check's exception end the process before the import. */
  function LoadImageReferences(ws: Workspace, check: Check): (r: Outcome)
    ensures r.Completed? <==> check.Passed?
    ensures r.Crashed? <==> check.Raised?
    ensures r.Completed? ==> r.trace == [ImportReference(ReferencePath(ws.baseDir), [FIELD_DELIMITER], ReferenceFormatCSV)]
    ensures r.Aborted? ==> r.trace == [Notice(check.message), Save]
    ensures r.Crashed? ==> r.trace == []
  {
    match check
    case Passed => Completed([ImportReference(ReferencePath(ws.baseDir), [FIELD_DELIMITER], ReferenceFormatCSV)])
    case Exit(message) => SaveAndExit([message])
    case Raised => Crashed([])
  }

  const MATCH_AND_ALIGN: seq<Event> := [
    MatchPhotos(IMAGE_ACCURACY_MATCHING, true, true, KEYPOINT_LIMIT, TIEPOINT_LIMIT),
    AlignCameras,
    Save]

  /** `align_images`: search the images, add them, check and import the
      reference file, then match, align and save. The photos are added
      before the reference file is looked at. */
  function AlignImages(ws: Workspace, images: seq<string>, check: Check): (r: Outcome)
    ensures r.Completed? <==> |images| > 0 && check.Passed?
    ensures r.Crashed? <==> |images| > 0 && check.Raised?
    ensures r.Completed? ==>
      r.trace == [AddPhotos(images)] + [ImportReference(ReferencePath(ws.baseDir), [FIELD_DELIMITER], ReferenceFormatCSV)] + MATCH_AND_ALIGN
    ensures r.Crashed? ==> r.trace == [AddPhotos(images)]
    ensures r.Aborted? ==> |r.trace| > 0 && r.trace[|r.trace| - 1] == Save
  {
    Then(ImageList(ws, images),
      Then(Completed([AddPhotos(images)]),
        Then(LoadImageReferences(ws, check), Completed(MATCH_AND_ALIGN))))
  }

  /** `filter_sparse_cloud`: each filter pass is followed by its own
      optimisation. */
  const FILTER_SPARSE_CLOUD: seq<Event> := [
    FilterPoints(ReprojectionError, REPROJECTION_ERROR_THRESHOLD),
    OptimizeCameras,
    FilterPoints(ProjectionAccuracy, REPROJECTION_ACCURACY_THRESHOLD),
    OptimizeCameras]

  const MODEL_AND_OVERLAP: seq<Event> := [
    BuildModel(PointCloudData),
    ReduceOverlap(REDUCE_OVERLAP),
    Notice(DONE_REDUCING_MESSAGE)]

  /** The first processing step: align, filter, save, build the model and
      reduce overlap. It completes exactly when images were found and the
      reference file passed; it crashes exactly when images were found and
      the check raised, having added the photos and nothing else. */
  function StepOne(ws: Workspace, images: seq<string>, check: Check): (r: Outcome)
    ensures r.Completed? <==> |images| > 0 && check.Passed?
    ensures r.Crashed? <==> |images| > 0 && check.Raised?
    ensures r.Completed? ==> r.trace == StepOneEvents(ws, images)
    ensures r.Crashed? ==> r.trace == [AddPhotos(images)]
    ensures r.Aborted? ==> |r.trace| > 0 && r.trace[|r.trace| - 1] == Save
  {
    Then(AlignImages(ws, images, check),
      Completed(FILTER_SPARSE_CLOUD + [Notice(DONE_FILTERING_MESSAGE), Save] + MODEL_AND_OVERLAP))
  }

  /** `build_dense_cloud`: depth maps at the quality's downscale with
      aggressive filtering, then the dense cloud; nothing is saved. */
  function BuildDenseCloudEvents(quality: string): (r: seq<Event>)
    ensures ProducedBy(r) == {DepthMaps, DenseCloud} && ExportedBy(r) == [] && !HasSave(r)
    ensures |r| > 0 && r[0].BuildDepthMaps?
      && r[0].depthDownscale == DenseDownscale(quality) && r[0].aggressiveFiltering
  {
    var r := [BuildDepthMaps(DenseDownscale(quality), true), BuildDenseCloud];
    TraceUnfold(r);
    r
  }

  /** The second processing step: depth maps, dense cloud, DEM and
      orthomosaic. It produces exactly the dense products and saves once,
      as its last event. */
  function StepTwo(quality: string): (r: seq<Event>)
    ensures ProducedBy(r) == DENSE_PRODUCTS && ExportedBy(r) == []
    ensures |r| > 0 && r[|r| - 1] == Save
    ensures forall i :: 0 <= i < |r| - 1 ==> r[i] != Save
  {
    var dense := BuildDenseCloudEvents(quality);
    StepTwoShape(dense);
    [Notice(BUILDING_DENSE_MESSAGE)] + dense + SURFACES
  }

  lemma StepTwoShape(dense: seq<Event>)
    requires ProducedBy(dense) == {DepthMaps, DenseCloud} && ExportedBy(dense) == [] && !HasSave(dense)
    ensures var r := [Notice(BUILDING_DENSE_MESSAGE)] + dense + SURFACES;
      ProducedBy(r) == DENSE_PRODUCTS && ExportedBy(r) == []
      && |r| > 0 && r[|r| - 1] == Save
      && forall i :: 0 <= i < |r| - 1 ==> r[i] != Save
  {
    var notice := [Notice(BUILDING_DENSE_MESSAGE)];
    var r := notice + dense + SURFACES;
    NoticeEffects(BUILDING_DENSE_MESSAGE);
    SurfacesEffects();
    ProducedByAppend(notice, dense);
    ProducedByAppend(notice + dense, SURFACES);
    forall i | 0 <= i < |r| - 1
      ensures r[i] != Save
    {
      if i == 0 {
        assert r[i] == Notice(BUILDING_DENSE_MESSAGE);
      } else if i <= |dense| {
        assert r[i] == dense[i - 1];
      } else {
        assert r[i] == SURFACES[i - 1 - |dense|];
      }
    }
  }

  /** The DEM and the orthomosaic built on it, then the save. */
  const SURFACES: seq<Event> := [
    Notice(BUILDING_DEM_MESSAGE), BuildDem,
    Notice(BUILDING_ORTHOMOSAIC_MESSAGE), BuildOrthomosaic(ElevationData), Save]

  /** `export_results`: the DEM, then the compressed orthomosaic. Exporting
      writes two rasters and changes nothing in the chunk or the project
      file. */
  function ExportResults(name: string): (r: seq<Event>)
    ensures ProducedBy(r) == {}
    ensures ExportedBy(r) == [DemExportPath(name), OrthoExportPath(name)]
    ensures !HasSave(r)
  {
    var r := [ExportRaster(DemExportPath(name), ElevationData, false),
              ExportRaster(OrthoExportPath(name), OrthomosaicData, true)];
    TraceUnfold(r);
    r
  }

  /** `process` on the given verdict of the reference check: save, then the
      selected steps, then the export. */
  function ProcessWith(ws: Workspace, opts: Options, images: seq<string>, check: Check): (r: Outcome)
    ensures |r.trace| > 0 && r.trace[0] == Save
  {
    Then(Completed([Save]),
      Then(Completed(NoStepNotice(opts)),
        Then(StepOnePart(ws, opts, images, check), Completed(Tail(opts, ws.name)))))
  }

  /** `process` as the script runs it, with the reference check as
      written: a reference file of fewer than two lines ends the process
      with an uncaught exception. */
  function Process(ws: Workspace, opts: Options, inputs: Inputs): (r: Outcome)
    ensures |r.trace| > 0 && r.trace[0] == Save
    ensures r.Crashed? ==> CheckReferenceFileAsWritten(inputs.referenceFile, ws.imageType).Raised?
  {
    ProcessWith(ws, opts, inputs.images, CheckReferenceFileAsWritten(inputs.referenceFile, ws.imageType))
  }

  /** `process` with the corrected reference check: it never crashes. */
  function ProcessCorrected(ws: Workspace, opts: Options, inputs: Inputs): (r: Outcome)
    ensures |r.trace| > 0 && r.trace[0] == Save
    ensures !r.Crashed?
  {
    ProcessWith(ws, opts, inputs.images, CheckReferenceFile(inputs.referenceFile, ws.imageType))
  }

  /** The first step when it is selected. */
  function StepOnePart(ws: Workspace, opts: Options, images: seq<string>, check: Check): Outcome {
    if opts.stepOneAlign then StepOne(ws, images, check) else Completed([])
  }

  /** The script's run exits early exactly when the first step is selected
      and either no images are found or the reference file is missing or
      of the wrong type; such an exit ends with a save. It crashes exactly
      when the first step is selected, images are found and the reference
      check raises, and then only the initial save and the photos happened. */
  lemma ProcessOutcome(ws: Workspace, opts: Options, inputs: Inputs)
    ensures var check := CheckReferenceFileAsWritten(inputs.referenceFile, ws.imageType);
      Process(ws, opts, inputs).Aborted? <==>
        opts.stepOneAlign && (|inputs.images| == 0 || check.Exit?)
    ensures var check := CheckReferenceFileAsWritten(inputs.referenceFile, ws.imageType);
      Process(ws, opts, inputs).Crashed? <==>
        opts.stepOneAlign && |inputs.images| > 0 && check.Raised?
    ensures var r := Process(ws, opts, inputs);
      r.Aborted? ==> r.trace[|r.trace| - 1] == Save
    ensures var r := Process(ws, opts, inputs);
      r.Crashed? ==> r.trace == [Save, AddPhotos(inputs.images)]
  {
    OutcomeWith(ws, opts, inputs.images, CheckReferenceFileAsWritten(inputs.referenceFile, ws.imageType));
  }

  lemma OutcomeWith(ws: Workspace, opts: Options, images: seq<string>, check: Check)
    ensures ProcessWith(ws, opts, images, check).Aborted? <==>
      opts.stepOneAlign && (|images| == 0 || check.Exit?)
    ensures ProcessWith(ws, opts, images, check).Crashed? <==>
      opts.stepOneAlign && |images| > 0 && check.Raised?
    ensures var r := ProcessWith(ws, opts, images, check);
      r.Aborted? ==> r.trace[|r.trace| - 1] == Save
    ensures var r := ProcessWith(ws, opts, images, check);
      r.Crashed? ==> r.trace == [Save, AddPhotos(images)]
  {
    var r := ProcessWith(ws, opts, images, check);
    if opts.stepOneAlign {
      var one := StepOne(ws, images, check);
      if !one.Completed? {
        assert r.trace == [Save] + ([] + one.trace);
        assert r.trace[|r.trace| - 1] == one.trace[|one.trace| - 1];
      }
    }
  }

  /** Where the script's run crashes, the corrected run prints the no-data
      message and saves; everywhere else the two runs are the same. */
  lemma CorrectedRunDiffersOnlyByCrash(ws: Workspace, opts: Options, inputs: Inputs)
    ensures CheckReferenceFileAsWritten(inputs.referenceFile, ws.imageType) != Raised ==>
      ProcessCorrected(ws, opts, inputs) == Process(ws, opts, inputs)
    ensures Process(ws, opts, inputs).Crashed? ==>
      ProcessCorrected(ws, opts, inputs)
        == Aborted(Process(ws, opts, inputs).trace + [Notice(NO_DATA_MESSAGE), Save])
  {
    if Process(ws, opts, inputs).Crashed? {
      ProcessOutcome(ws, opts, inputs);
      ExitTrace(ws, opts, inputs.images, NO_DATA_MESSAGE);
    }
  }

  /** With the first step selected and images found, a check that exits
      ends the run after the photos, the message and a save. */
  lemma ExitTrace(ws: Workspace, opts: Options, images: seq<string>, message: string)
    requires opts.stepOneAlign && |images| > 0
    ensures ProcessWith(ws, opts, images, Exit(message))
         == Aborted([Save, AddPhotos(images), Notice(message), Save])
  {
    var one := AlignImages(ws, images, Exit(message));
    assert one.trace == [] + ([AddPhotos(images)] + [Notice(message), Save]);
  }

  /** A reference file that holds only its header line: the script's run
      crashes after adding the photos, with no message and no second save;
      the corrected run prints the no-data message and saves. */
  lemma HeaderOnlyReferenceCrashes(ws: Workspace, opts: Options, images: seq<string>, header: string)
    requires opts.stepOneAlign && |images| > 0 && '\n' !in header && '\r' !in header
    ensures Process(ws, opts, Inputs(images, Some(header + "\n"))) == Crashed([Save, AddPhotos(images)])
    ensures ProcessCorrected(ws, opts, Inputs(images, Some(header + "\n")))
         == Aborted([Save, AddPhotos(images), Notice(NO_DATA_MESSAGE), Save])
  {
    HeaderOnlyFileRaises(header, ws.imageType);
    ProcessOutcome(ws, opts, Inputs(images, Some(header + "\n")));
    ExitTrace(ws, opts, images, NO_DATA_MESSAGE);
  }

  /** With neither step selected, a run saves, prints a notice and, when
      asked, exports; nothing else happens. */
  lemma NoStepSelected(ws: Workspace, opts: Options, inputs: Inputs)
    requires !opts.stepOneAlign && !opts.stepTwoDenseCloud
    ensures Process(ws, opts, inputs)
         == Completed([Save, Notice(NO_STEP_MESSAGE)] + (if opts.withExport then ExportResults(ws.name) else []))
  {
    NoStepWith(ws, opts, inputs.images, CheckReferenceFileAsWritten(inputs.referenceFile, ws.imageType));
  }

  lemma NoStepWith(ws: Workspace, opts: Options, images: seq<string>, check: Check)
    requires !opts.stepOneAlign && !opts.stepTwoDenseCloud
    ensures ProcessWith(ws, opts, images, check)
         == Completed([Save, Notice(NO_STEP_MESSAGE)] + (if opts.withExport then ExportResults(ws.name) else []))
  {
    var e := Tail(opts, ws.name);
    assert e == (if opts.withExport then ExportResults(ws.name) else []);
    assert StepOnePart(ws, opts, images, check) == Completed([]);
    assert NoStepNotice(opts) == [Notice(NO_STEP_MESSAGE)];
    ConcatAssoc([Save], [Notice(NO_STEP_MESSAGE)], e);
  }

  /** An empty image search aborts with a save before the reference file
      is read: the reference file plays no part in the outcome. */
  lemma EmptyImageListAborts(ws: Workspace, opts: Options, referenceFile: Option<string>)
    requires opts.stepOneAlign
    ensures Process(ws, opts, Inputs([], referenceFile))
         == Aborted([Save, Notice(NoImagesMessages(ws)[0]), Notice(NoImagesMessages(ws)[1]), Save])
  {
    NoImagesTrace(ws, opts, CheckReferenceFileAsWritten(referenceFile, ws.imageType));
  }

  lemma NoImagesTrace(ws: Workspace, opts: Options, check: Check)
    requires opts.stepOneAlign
    ensures ProcessWith(ws, opts, [], check)
         == Aborted([Save, Notice(NoImagesMessages(ws)[0]), Notice(NoImagesMessages(ws)[1]), Save])
  {
    var messages := NoImagesMessages(ws);
    var exit := Notices(messages) + [Save];
    assert exit == [Notice(messages[0]), Notice(messages[1]), Save];
    assert AlignImages(ws, [], check) == Aborted(exit);
    assert StepOne(ws, [], check) == Aborted(exit);
    assert [Save] + ([] + exit) == [Save, Notice(messages[0]), Notice(messages[1]), Save];
  }

  /** A reference file that is missing or of the wrong image type aborts
      the run after the photos were added, with the rejection printed and
      the project saved. */
  lemma RejectedReferenceAborts(ws: Workspace, opts: Options, inputs: Inputs)
    requires opts.stepOneAlign && |inputs.images| > 0
    requires CheckReferenceFileAsWritten(inputs.referenceFile, ws.imageType).Exit?
    ensures Process(ws, opts, inputs)
         == Aborted([Save, AddPhotos(inputs.images),
                     Notice(CheckReferenceFileAsWritten(inputs.referenceFile, ws.imageType).message), Save])
  {
    ExitTrace(ws, opts, inputs.images, CheckReferenceFileAsWritten(inputs.referenceFile, ws.imageType).message);
  }

  /** The first step runs in this order: add photos, import the reference,
      match with the fixed parameters, align, save; filter by reprojection
      error at 0.3 and optimise; filter by projection accuracy at 10 and
      optimise; save; build the model from the point cloud; reduce overlap
      to 6. */
  lemma StepOneOrder(ws: Workspace, opts: Options, inputs: Inputs)
    requires opts.stepOneAlign && |inputs.images| > 0
    requires CheckReferenceFileAsWritten(inputs.referenceFile, ws.imageType) == Passed
    ensures Process(ws, opts, inputs).Completed?
    ensures |Process(ws, opts, inputs).trace| >= 15
    ensures Process(ws, opts, inputs).trace[..15] == [
        Save,
        AddPhotos(inputs.images),
        ImportReference(ws.baseDir + "images_metadata_gps.csv", ",", ReferenceFormatCSV),
        MatchPhotos(0, true, true, 40000, 0),
        AlignCameras,
        Save,
        FilterPoints(ReprojectionError, 0.3),
        OptimizeCameras,
        FilterPoints(ProjectionAccuracy, 10.0),
        OptimizeCameras,
        Notice(DONE_FILTERING_MESSAGE),
        Save,
        BuildModel(PointCloudData),
        ReduceOverlap(6),
        Notice(DONE_REDUCING_MESSAGE)]
  {
    StepOneRunTrace(ws, opts, inputs);
    PrefixOfConcat([Save] + StepOneEvents(ws, inputs.images), Tail(opts, ws.name));
    StepOneSpelledOut(ws, inputs.images);
  }

  lemma StepOneRunTrace(ws: Workspace, opts: Options, inputs: Inputs)
    requires opts.stepOneAlign && |inputs.images| > 0
    requires CheckReferenceFileAsWritten(inputs.referenceFile, ws.imageType) == Passed
    ensures Process(ws, opts, inputs).Completed?
    ensures Process(ws, opts, inputs).trace == [Save] + StepOneEvents(ws, inputs.images) + Tail(opts, ws.name)
  {
    CompletedRunTrace(ws, opts, inputs);
    assert NoStepNotice(opts) == [];
    assert [Save] + NoStepNotice(opts) == [Save];
  }

  lemma PrefixOfConcat(a: seq<Event>, b: seq<Event>)
    ensures (a + b)[..|a|] == a
  {
  }

  lemma StepOneSpelledOut(ws: Workspace, images: seq<string>)
    ensures [Save] + StepOneEvents(ws, images) == [
        Save,
        AddPhotos(images),
        ImportReference(ws.baseDir + "images_metadata_gps.csv", ",", ReferenceFormatCSV),
        MatchPhotos(0, true, true, 40000, 0),
        AlignCameras,
        Save,
        FilterPoints(ReprojectionError, 0.3),
        OptimizeCameras,
        FilterPoints(ProjectionAccuracy, 10.0),
        OptimizeCameras,
        Notice(DONE_FILTERING_MESSAGE),
        Save,
        BuildModel(PointCloudData),
        ReduceOverlap(6),
        Notice(DONE_REDUCING_MESSAGE)]
  {
  }

  /** The events of a first step that does not abort: alignment and
      filtering up to the save, then the model and the overlap reduction. */
  function StepOneEvents(ws: Workspace, images: seq<string>): seq<Event> {
    AlignAndFilterEvents(ws, images) + MODEL_AND_OVERLAP
  }

  function AlignAndFilterEvents(ws: Workspace, images: seq<string>): seq<Event> {
    [AddPhotos(images)] + [ImportReference(ReferencePath(ws.baseDir), [FIELD_DELIMITER], ReferenceFormatCSV)]
    + MATCH_AND_ALIGN + FILTER_SPARSE_CLOUD + [Notice(DONE_FILTERING_MESSAGE), Save]
  }

  /** The notice printed when no step is selected. */
  function NoStepNotice(opts: Options): seq<Event> {
    if !opts.stepOneAlign && !opts.stepTwoDenseCloud then [Notice(NO_STEP_MESSAGE)] else []
  }

  /** A run that completes is, in order: the initial save; the notice when
      no step is selected; the first step; the second step; the export. */
  lemma CompletedRunTrace(ws: Workspace, opts: Options, inputs: Inputs)
    requires Process(ws, opts, inputs).Completed?
    ensures Process(ws, opts, inputs).trace
         == [Save] + NoStepNotice(opts)
          + (if opts.stepOneAlign then StepOneEvents(ws, inputs.images) else [])
          + Tail(opts, ws.name)
  {
    CompletedWith(ws, opts, inputs.images, CheckReferenceFileAsWritten(inputs.referenceFile, ws.imageType));
  }

  lemma CompletedWith(ws: Workspace, opts: Options, images: seq<string>, check: Check)
    requires ProcessWith(ws, opts, images, check).Completed?
    ensures ProcessWith(ws, opts, images, check).trace
         == [Save] + NoStepNotice(opts)
          + (if opts.stepOneAlign then StepOneEvents(ws, images) else [])
          + Tail(opts, ws.name)
  {
    var one := StepOnePart(ws, opts, images, check);
    ConcatAssoc([Save] + NoStepNotice(opts), one.trace, Tail(opts, ws.name));
    ConcatAssoc([Save], NoStepNotice(opts), one.trace + Tail(opts, ws.name));
  }

  /** What follows the first step: the second step and the export, each
      when selected. */
  function Tail(opts: Options, name: string): seq<Event> {
    (if opts.stepTwoDenseCloud then StepTwo(opts.denseCloudQuality) else [])
    + (if opts.withExport then ExportResults(name) else [])
  }

  /** Whenever a run completes with the export requested, it ends by
      writing the DEM and then the orthomosaic, whatever steps ran. */
  lemma ExportComesLast(ws: Workspace, opts: Options, inputs: Inputs)
    requires Process(ws, opts, inputs).Completed? && opts.withExport
    ensures var t := Process(ws, opts, inputs).trace;
      |t| >= 2 && t[|t| - 2..] == [
        ExportRaster(ws.name + "_dem.tif", ElevationData, false),
        ExportRaster(ws.name + ".tif", OrthomosaicData, true)]
  {
    ExportLastWith(ws, opts, inputs.images, CheckReferenceFileAsWritten(inputs.referenceFile, ws.imageType));
  }

  lemma ExportLastWith(ws: Workspace, opts: Options, images: seq<string>, check: Check)
    requires ProcessWith(ws, opts, images, check).Completed? && opts.withExport
    ensures var t := ProcessWith(ws, opts, images, check).trace;
      |t| >= 2 && t[|t| - 2..] == [
        ExportRaster(ws.name + "_dem.tif", ElevationData, false),
        ExportRaster(ws.name + ".tif", OrthomosaicData, true)]
  {
    CompletedEndsWithExports(ws, opts, images, check);
    ExportPair(ws.name);
  }

  /** A completed run that exports ends with the two export calls. */
  lemma CompletedEndsWithExports(ws: Workspace, opts: Options, images: seq<string>, check: Check)
    requires ProcessWith(ws, opts, images, check).Completed? && opts.withExport
    ensures var t := ProcessWith(ws, opts, images, check).trace;
      |t| >= 2 && t[|t| - 2..] == ExportResults(ws.name)
  {
    CompletedWith(ws, opts, images, check);
    var start := [Save] + NoStepNotice(opts)
      + (if opts.stepOneAlign then StepOneEvents(ws, images) else []);
    var two := if opts.stepTwoDenseCloud then StepTwo(opts.denseCloudQuality) else [];
    var exports := ExportResults(ws.name);
    assert Tail(opts, ws.name) == two + exports;
    ConcatAssoc(start, two, exports);
    LastTwoOfConcat(start + two, exports);
  }

  lemma LastTwoOfConcat(a: seq<Event>, b: seq<Event>)
    requires |b| == 2
    ensures (a + b)[|a + b| - 2..] == b
  {
  }

  lemma ExportPair(name: string)
    ensures ExportResults(name) == [
      ExportRaster(name + "_dem.tif", ElevationData, false),
      ExportRaster(name + ".tif", OrthomosaicData, true)]
  {
    assert DemExportPath(name) == name + "_dem.tif";
    assert OrthoExportPath(name) == name + ".tif";
  }

  /** The second step prints its notices, builds depth maps at the
      quality's downscale, then the dense cloud, the DEM and the
      orthomosaic, and saves at the end. */
  lemma StepTwoOrder(quality: string)
    ensures StepTwo(quality) == [
      Notice(BUILDING_DENSE_MESSAGE),
      BuildDepthMaps(DenseDownscale(quality), true),
      BuildDenseCloud,
      Notice(BUILDING_DEM_MESSAGE),
      BuildDem,
      Notice(BUILDING_ORTHOMOSAIC_MESSAGE),
      BuildOrthomosaic(ElevationData),
      Save]
  {
  }

  const ALIGNMENT_PRODUCTS: set<Product> := {
    Photos, References, TiePoints, CameraAlignment,
    FilteredBy(ReprojectionError), OptimizedCameras, FilteredBy(ProjectionAccuracy)}
  const MODEL_PRODUCTS: set<Product> := {Model, ReducedOverlap}
  const DENSE_PRODUCTS: set<Product> := {DepthMaps, DenseCloud, Dem, Orthomosaic}

  /** What alignment and filtering produce. */
  lemma AlignAndFilterEffects(ws: Workspace, images: seq<string>)
    ensures ProducedBy(AlignAndFilterEvents(ws, images)) == ALIGNMENT_PRODUCTS
    ensures ExportedBy(AlignAndFilterEvents(ws, images)) == []
    ensures var t := AlignAndFilterEvents(ws, images); |t| > 0 && t[|t| - 1] == Save
  {
    var load := [AddPhotos(images)] + [ImportReference(ReferencePath(ws.baseDir), [FIELD_DELIMITER], ReferenceFormatCSV)];
    var done := [Notice(DONE_FILTERING_MESSAGE), Save];
    LoadEffects(images, ReferencePath(ws.baseDir), [FIELD_DELIMITER], ReferenceFormatCSV);
    MatchAndAlignEffects();
    FilterEffects();
    DoneEffects();
    FourPartEffects(load, MATCH_AND_ALIGN, FILTER_SPARSE_CLOUD, done);
    AlignmentProductsUnion();
  }

  lemma AlignmentProductsUnion()
    ensures {Photos, References} + {TiePoints, CameraAlignment}
          + {FilteredBy(ReprojectionError), OptimizedCameras, FilteredBy(ProjectionAccuracy)} + {}
         == ALIGNMENT_PRODUCTS
  {
  }

  lemma FourPartEffects(a: seq<Event>, b: seq<Event>, c: seq<Event>, d: seq<Event>)
    ensures ProducedBy(a + b + c + d) == ProducedBy(a) + ProducedBy(b) + ProducedBy(c) + ProducedBy(d)
    ensures ExportedBy(a + b + c + d) == ExportedBy(a) + ExportedBy(b) + ExportedBy(c) + ExportedBy(d)
    ensures |d| > 0 ==> (a + b + c + d)[|a + b + c + d| - 1] == d[|d| - 1]
  {
    ProducedByAppend(a, b);
    ProducedByAppend(a + b, c);
    ProducedByAppend(a + b + c, d);
  }

  lemma LoadEffects(images: seq<string>, path: string, delimiter: string, format: ReferenceFormat)
    ensures ProducedBy([AddPhotos(images)] + [ImportReference(path, delimiter, format)]) == {Photos, References}
    ensures ExportedBy([AddPhotos(images)] + [ImportReference(path, delimiter, format)]) == []
  {
    TraceUnfold([AddPhotos(images)] + [ImportReference(path, delimiter, format)]);
  }

  lemma MatchAndAlignEffects()
    ensures ProducedBy(MATCH_AND_ALIGN) == {TiePoints, CameraAlignment} && ExportedBy(MATCH_AND_ALIGN) == []
  {
    TraceUnfold(MATCH_AND_ALIGN);
  }

  lemma FilterEffects()
    ensures ProducedBy(FILTER_SPARSE_CLOUD)
         == {FilteredBy(ReprojectionError), OptimizedCameras, FilteredBy(ProjectionAccuracy)}
    ensures ExportedBy(FILTER_SPARSE_CLOUD) == []
  {
    TraceUnfold(FILTER_SPARSE_CLOUD);
  }

  lemma DoneEffects()
    ensures ProducedBy([Notice(DONE_FILTERING_MESSAGE), Save]) == {}
    ensures ExportedBy([Notice(DONE_FILTERING_MESSAGE), Save]) == []
  {
    TraceUnfold([Notice(DONE_FILTERING_MESSAGE), Save]);
  }

  lemma NoticeEffects(text: string)
    ensures ProducedBy([Notice(text)]) == {} && ExportedBy([Notice(text)]) == [] && !HasSave([Notice(text)])
  {
    TraceUnfold([Notice(text)]);
  }

  lemma SurfacesEffects()
    ensures ProducedBy(SURFACES) == {Dem, Orthomosaic} && ExportedBy(SURFACES) == []
  {
    var t := SURFACES;
    TraceUnfold(t);
    assert ProducedBy(t[4..]) == {} && ExportedBy(t[4..]) == [];
    assert ProducedBy(t[3..]) == {Orthomosaic} && ExportedBy(t[3..]) == [];
    assert ProducedBy(t[1..]) == {Dem, Orthomosaic} && ExportedBy(t[1..]) == [];
  }

  /** What the remaining fixed parts of a run produce and export. */
  lemma SegmentEffects()
    ensures ProducedBy(MODEL_AND_OVERLAP) == MODEL_PRODUCTS && ExportedBy(MODEL_AND_OVERLAP) == []
    ensures ProducedBy([Save]) == {} && ExportedBy([Save]) == []
    ensures ProducedBy([Notice(NO_STEP_MESSAGE)]) == {} && ExportedBy([Notice(NO_STEP_MESSAGE)]) == []
    ensures !HasSave(MODEL_AND_OVERLAP)
  {
    ModelEffects();
    TraceUnfold([Save]);
    NoticeEffects(NO_STEP_MESSAGE);
  }

  lemma ModelEffects()
    ensures ProducedBy(MODEL_AND_OVERLAP) == MODEL_PRODUCTS && ExportedBy(MODEL_AND_OVERLAP) == []
    ensures !HasSave(MODEL_AND_OVERLAP)
  {
    TraceUnfold(MODEL_AND_OVERLAP);
  }

  /** The products a completed run leaves in memory. */
  function RunProducts(opts: Options): set<Product> {
    (if opts.stepOneAlign then ALIGNMENT_PRODUCTS + MODEL_PRODUCTS else {})
    + (if opts.stepTwoDenseCloud then DENSE_PRODUCTS else {})
  }

  /** The rasters a completed run writes, in order. */
  function RunExports(opts: Options, name: string): seq<string> {
    if opts.withExport then [DemExportPath(name), OrthoExportPath(name)] else []
  }

  /** A completed run adds the products of the selected steps to the chunk
      and writes the two rasters when asked. What reaches the project file
      depends on the steps: with the second step everything is saved; with
      the first step alone the model and the overlap reduction come after
      the last save and stay in memory only; with neither step the file
      holds what the chunk held before. */
  lemma CompletedRunEffects(st: State, ws: Workspace, opts: Options, inputs: Inputs)
    requires Process(ws, opts, inputs).Completed?
    ensures var after := Replay(st, Process(ws, opts, inputs).trace);
      after.live == st.live + RunProducts(opts)
      && after.exported == st.exported + RunExports(opts, ws.name)
    ensures var after := Replay(st, Process(ws, opts, inputs).trace);
      opts.stepTwoDenseCloud ==> after.saved == after.live
    ensures var after := Replay(st, Process(ws, opts, inputs).trace);
      opts.stepOneAlign && !opts.stepTwoDenseCloud ==> after.saved == st.live + ALIGNMENT_PRODUCTS
    ensures var after := Replay(st, Process(ws, opts, inputs).trace);
      !opts.stepOneAlign && !opts.stepTwoDenseCloud ==> after.saved == st.live
  {
    var t := Process(ws, opts, inputs).trace;
    CompletedRunTrace(ws, opts, inputs);
    RunTraceEffects(ws, opts, inputs.images);
    ReplayLive(st, t);
    if opts.stepTwoDenseCloud {
      SavedWithStepTwo(st, ws, opts, inputs.images);
    } else if opts.stepOneAlign {
      SavedWithStepOneOnly(st, ws, opts, inputs.images);
    } else {
      SavedWithNoStep(st, ws, opts, inputs.images);
    }
  }

  /** The events of a completed run, by part. */
  function RunTrace(ws: Workspace, opts: Options, images: seq<string>): seq<Event> {
    [Save] + NoStepNotice(opts)
    + (if opts.stepOneAlign then StepOneEvents(ws, images) else [])
    + Tail(opts, ws.name)
  }

  lemma ExportEffects(opts: Options, name: string)
    ensures var e := if opts.withExport then ExportResults(name) else [];
      ProducedBy(e) == {} && ExportedBy(e) == RunExports(opts, name) && !HasSave(e)
  {
    SegmentEffects();
  }

  lemma RunTraceEffects(ws: Workspace, opts: Options, images: seq<string>)
    ensures ProducedBy(RunTrace(ws, opts, images)) == RunProducts(opts)
    ensures ExportedBy(RunTrace(ws, opts, images)) == RunExports(opts, ws.name)
  {
    var front := [Save] + NoStepNotice(opts);
    var one := if opts.stepOneAlign then StepOneEvents(ws, images) else [];
    FrontEffects(opts);
    StepOnePartEffects(ws, opts, images);
    TailEffects(opts, ws.name);
    ProducedByAppend(front, one);
    ProducedByAppend(front + one, Tail(opts, ws.name));
  }

  lemma FrontEffects(opts: Options)
    ensures ProducedBy([Save] + NoStepNotice(opts)) == {} && ExportedBy([Save] + NoStepNotice(opts)) == []
  {
    TraceUnfold([Save] + NoStepNotice(opts));
  }

  lemma StepOnePartEffects(ws: Workspace, opts: Options, images: seq<string>)
    ensures var one := if opts.stepOneAlign then StepOneEvents(ws, images) else [];
      ProducedBy(one) == (if opts.stepOneAlign then ALIGNMENT_PRODUCTS + MODEL_PRODUCTS else {})
      && ExportedBy(one) == []
  {
    if opts.stepOneAlign {
      SegmentEffects();
      AlignAndFilterEffects(ws, images);
      ProducedByAppend(AlignAndFilterEvents(ws, images), MODEL_AND_OVERLAP);
    } else {
      TraceUnfold([]);
    }
  }

  lemma TailEffects(opts: Options, name: string)
    ensures ProducedBy(Tail(opts, name)) == (if opts.stepTwoDenseCloud then DENSE_PRODUCTS else {})
    ensures ExportedBy(Tail(opts, name)) == RunExports(opts, name)
  {
    var two := if opts.stepTwoDenseCloud then StepTwo(opts.denseCloudQuality) else [];
    var e := if opts.withExport then ExportResults(name) else [];
    ExportEffects(opts, name);
    if !opts.stepTwoDenseCloud {
      TraceUnfold(two);
    }
    ProducedByAppend(two, e);
  }

  lemma SavedWithStepTwo(st: State, ws: Workspace, opts: Options, images: seq<string>)
    requires opts.stepTwoDenseCloud
    ensures Replay(st, RunTrace(ws, opts, images)).saved == Replay(st, RunTrace(ws, opts, images)).live
  {
    var e := if opts.withExport then ExportResults(ws.name) else [];
    var front := [Save] + NoStepNotice(opts) + (if opts.stepOneAlign then StepOneEvents(ws, images) else []);
    var two := StepTwo(opts.denseCloudQuality);
    ConcatAssoc(front, two, e);
    ExportEffects(opts, ws.name);
    ReplayUnsavedTail(st, front + two, e);
  }

  lemma SavedWithStepOneOnly(st: State, ws: Workspace, opts: Options, images: seq<string>)
    requires opts.stepOneAlign && !opts.stepTwoDenseCloud
    ensures Replay(st, RunTrace(ws, opts, images)).saved == st.live + ALIGNMENT_PRODUCTS
  {
    var e := if opts.withExport then ExportResults(ws.name) else [];
    var af := AlignAndFilterEvents(ws, images);
    StepOneOnlyTrace(ws, opts, images);
    StepOneHead(ws, images);
    SegmentEffects();
    ExportEffects(opts, ws.name);
    NoSaveAppend(MODEL_AND_OVERLAP, e);
    ReplayUnsavedTail(st, [Save] + af, MODEL_AND_OVERLAP + e);
  }

  lemma StepOneOnlyTrace(ws: Workspace, opts: Options, images: seq<string>)
    requires opts.stepOneAlign && !opts.stepTwoDenseCloud
    ensures RunTrace(ws, opts, images)
         == ([Save] + AlignAndFilterEvents(ws, images))
          + (MODEL_AND_OVERLAP + (if opts.withExport then ExportResults(ws.name) else []))
  {
    var e := if opts.withExport then ExportResults(ws.name) else [];
    assert NoStepNotice(opts) == [];
    assert Tail(opts, ws.name) == [] + e;
    var af := AlignAndFilterEvents(ws, images);
    assert [Save] + [] + (af + MODEL_AND_OVERLAP) == [Save] + (af + MODEL_AND_OVERLAP);
    ConcatAssoc([Save], af, MODEL_AND_OVERLAP);
    ConcatAssoc([Save] + af, MODEL_AND_OVERLAP, e);
  }

  lemma StepOneHead(ws: Workspace, images: seq<string>)
    ensures var head := [Save] + AlignAndFilterEvents(ws, images);
      |head| > 0 && head[|head| - 1] == Save && ProducedBy(head) == ALIGNMENT_PRODUCTS
  {
    var af := AlignAndFilterEvents(ws, images);
    AlignAndFilterEffects(ws, images);
    ProducedByAppend([Save], af);
  }

  lemma SavedWithNoStep(st: State, ws: Workspace, opts: Options, images: seq<string>)
    requires !opts.stepOneAlign && !opts.stepTwoDenseCloud
    ensures Replay(st, RunTrace(ws, opts, images)).saved == st.live
  {
    var e := if opts.withExport then ExportResults(ws.name) else [];
    var notice := [Notice(NO_STEP_MESSAGE)];
    assert NoStepNotice(opts) == notice;
    assert Tail(opts, ws.name) == [] + e;
    ConcatAssoc([Save], notice, e);
    assert [Save] + notice + [] + ([] + e) == [Save] + (notice + e);
    SegmentEffects();
    ExportEffects(opts, ws.name);
    assert !HasSave(notice);
    NoSaveAppend(notice, e);
    ReplayUnsavedTail(st, [Save], notice + e);
  }

  /** An aborted run leaves nothing unsaved and writes no raster: the
      project file holds everything in memory, which is at most the added
      photos on top of what the chunk held. */
  lemma AbortedRunEffects(st: State, ws: Workspace, opts: Options, inputs: Inputs)
    requires Process(ws, opts, inputs).Aborted?
    ensures var after := Replay(st, Process(ws, opts, inputs).trace);
      after.saved == after.live && after.exported == st.exported
      && st.live <= after.live <= st.live + {Photos}
  {
    var t := Process(ws, opts, inputs).trace;
    ProcessOutcome(ws, opts, inputs);
    ReplayEndingInSave(st, t);
    ReplayLive(st, t);
    if |inputs.images| == 0 {
      EmptyImageListAborts(ws, opts, inputs.referenceFile);
      NoImagesTraceEffects(NoImagesMessages(ws)[0], NoImagesMessages(ws)[1]);
    } else {
      RejectedReferenceAborts(ws, opts, inputs);
      RejectedTraceEffects(inputs.images, CheckReferenceFileAsWritten(inputs.referenceFile, ws.imageType).message);
    }
  }

  /** A crashed run saved only at its start: the photos it added are in
      memory but not in the project file, and no raster was written. The
      corrected run saves them before it exits. */
  lemma CrashedRunEffects(st: State, ws: Workspace, opts: Options, inputs: Inputs)
    requires Process(ws, opts, inputs).Crashed?
    ensures var after := Replay(st, Process(ws, opts, inputs).trace);
      after.saved == st.live && after.live == st.live + {Photos} && after.exported == st.exported
    ensures var after := Replay(st, ProcessCorrected(ws, opts, inputs).trace);
      after.saved == after.live == st.live + {Photos} && after.exported == st.exported
  {
    ProcessOutcome(ws, opts, inputs);
    CorrectedRunDiffersOnlyByCrash(ws, opts, inputs);
    CrashTraceEffects(st, inputs.images);
    ExitTraceEffects(st, inputs.images, NO_DATA_MESSAGE);
  }

  lemma CrashTraceEffects(st: State, images: seq<string>)
    ensures var after := Replay(st, [Save, AddPhotos(images)]);
      after.saved == st.live && after.live == st.live + {Photos} && after.exported == st.exported
  {
    var t := [Save, AddPhotos(images)];
    var s1 := Step(st, Save);
    var s2 := Step(s1, AddPhotos(images));
    assert t[1..] == [AddPhotos(images)];
    assert [AddPhotos(images)][1..] == [];
    assert Replay(st, t) == Replay(s1, [AddPhotos(images)]) == Replay(s2, []) == s2;
  }

  lemma ExitTraceEffects(st: State, images: seq<string>, message: string)
    ensures var after := Replay(st, [Save, AddPhotos(images), Notice(message), Save]);
      after.saved == after.live == st.live + {Photos} && after.exported == st.exported
  {
    var t := [Save, AddPhotos(images), Notice(message), Save];
    RejectedTraceEffects(images, message);
    ReplayEndingInSave(st, t);
    ReplayLive(st, t);
  }

  lemma NoImagesTraceEffects(first: string, second: string)
    ensures ProducedBy([Save, Notice(first), Notice(second), Save]) == {}
    ensures ExportedBy([Save, Notice(first), Notice(second), Save]) == []
  {
    TraceUnfold([Save, Notice(first), Notice(second), Save]);
  }

  lemma RejectedTraceEffects(images: seq<string>, message: string)
    ensures ProducedBy([Save, AddPhotos(images), Notice(message), Save]) == {Photos}
    ensures ExportedBy([Save, AddPhotos(images), Notice(message), Save]) == []
  {
    TraceUnfold([Save, AddPhotos(images), Notice(message), Save]);
  }
}
